=== FILE: README.md ===
# Momentum Ask AI, modelled in Dafny

Momentum's "Ask AI" feature lets a viewer put a question about entrepreneurship or learning to a
language model. This project models three pieces of it:

- **The `POST /ask` handler** (`ask_route.dfy`, module `AskRoute`). It covers:
  - the viewer-only gate;
  - the request schema (a `message` string of 1 to 2000 characters);
  - the check that an API key is configured;
  - the mapping from the outcome of the model call to the JSON reply.
- **The answer clean-up** (`sanitizer.dfy`, module `Sanitizer`). It covers the three regular-expression
  replacements and the final `trim` that turn the model's markdown into plain text. The model follows
  JavaScript's regular-expression semantics exactly:
  - the lazy `(.*?)` never crosses a line terminator;
  - `\s` includes the line terminators;
  - `^` under the `m` flag holds at the start and right after a line terminator;
  - a global replace resumes after each match and reads the original text.
- **The chat page** (`ask_chat.dfy`, module `AskChat`), as a state machine. Its state holds:
  - the message list and the input box;
  - the waiting and streaming flags;
  - the running reveal intervals, each of which types an answer into the last message one character per tick;
  - the questions handed to the server.
- **The avatar initials** of the header (`initials.dfy`, module `Initials`). The chat page repeats the same
  expression at `frontend/src/pages/AskAI.tsx` lines 173-177.

Two support modules complete the project:

- `js_text.dfy` (module `JsText`) holds the JavaScript string operations the code uses:
  - the `\s` class and the line terminators;
  - `trim`;
  - `split` and `join` on one character;
  - `toUpperCase`.
- `wrappers.dfy` holds `Option` and `Result`.

Characters are Unicode scalar values. The `\s` class is the ECMAScript WhiteSpace and LineTerminator sets,
written out. `trim` removes exactly that same set.

Two behaviours of the code are easy to miss:

- The schema checks the raw length, so a message of whitespace only is accepted and forwarded
  (`AskRoute.BlankMessageForwarded`).
- Step 3 of the clean-up does not preserve the number of lines. Because `\s*` and `\s+` match line
  terminators, a bullet match swallows a preceding blank line (`Sanitizer.BulletAbsorbsBlankLine`). A bare
  `*` at the end of a line swallows the line break after it (`Sanitizer.BulletJoinsNextLine`).

The clean-up is idempotent (`Sanitizer.SanitizeIdempotent`). The italic step leaves at most one asterisk per
line. The bullet step keeps that true even where it joins lines, and leaves no match of its own pattern.
`trim` keeps both facts, so a second pass finds nothing to replace and nothing to trim.

The handler is one total function. The caller's role, the body as the schema sees it, the configured key and
the outcome of the upstream call are all parameters:

- `NotOk(body)` is a non-2xx reply; `body` is `None` when that body is not JSON, so reading it throws.
- `Threw` is any other exception.
- `Ok(text)` is a 2xx reply with the first candidate's text, if there is one.

## Model

| member | source | states |
|---|---|---|
| AskRoute.Gate | backend/src/routes/ai.ts:8-16 | the gate passes exactly the role `VIEWER`; anything else, no user included, gets a failed 403 reply |
| AskRoute.NonViewerRefused | backend/src/routes/ai.ts:8-16 | a non-viewer gets 403 "Only viewers can access Ask AI" whatever the body, key and upstream, and nothing is forwarded |
| AskRoute.Validate | backend/src/routes/ai.ts:19-21 | the schema accepts exactly an object whose `message` is a string of raw length 1 to 2000, returns it unchanged, and otherwise reports one issue |
| AskRoute.ValidateCases | backend/src/routes/ai.ts:19-21 | a non-object, a missing message, a non-string, an empty string and a string over 2000 characters each get their own issue, with "Message cannot be empty" and "Message too long" for the two limits |
| AskRoute.BlankMessageForwarded | backend/src/routes/ai.ts:20 | a message of whitespace only, within the limits, passes the schema and is forwarded as it is |
| AskRoute.Ask | backend/src/routes/ai.ts:50-135 | the reply succeeds exactly when its status is 200; the status is one of 200, 400, 403, 500; the model is called exactly for a viewer with a valid body and a configured key, and receives the message as written; errors are listed exactly on 400 |
| AskRoute.InvalidBeforeKey | backend/src/routes/ai.ts:52-61 | an invalid body gets 400 "Invalid request" with its issues whatever the key and upstream are, and nothing is forwarded |
| AskRoute.MissingKey | backend/src/routes/ai.ts:54-61 | a valid body with an absent or empty key gets 500 "AI service is not configured" and nothing is forwarded |
| AskRoute.UnsentIgnoresUpstream | backend/src/routes/ai.ts:50-61 | when the model is not called, the reply does not depend on what the call would have returned |
| AskRoute.Classify | backend/src/routes/ai.ts:90-120 | the reply succeeds exactly for a 2xx outcome, with status 200 and data; every other outcome is a 500 without data |
| AskRoute.ErrorBodyHidden | backend/src/routes/ai.ts:90-97 | a non-2xx outcome with a JSON error body gets 500 "Failed to get response from AI", and two different error bodies give the same reply |
| AskRoute.ThrownFailure | backend/src/routes/ai.ts:129-134 | a thrown error, an unreadable error body included, gets 500 "Failed to process your question" |
| AskRoute.Answer | backend/src/routes/ai.ts:99-113 | the answer is no longer than the candidate text, or than the fallback when that text is missing or empty, and has no outer whitespace |
| AskRoute.FallbackClean | backend/src/routes/ai.ts:104-113 | the clean-up leaves "No response generated" unchanged |
| AskRoute.EmptyAnswerFallsBack | backend/src/routes/ai.ts:100 | a 2xx outcome with no candidate text or an empty one is a success carrying "No response generated" |
| AskRoute.AnswerCleaned | backend/src/routes/ai.ts:100-120 | a 2xx outcome with text returns the cleaned text, whose running text is the model's running text |
| Sanitizer.Sanitize | backend/src/routes/ai.ts:102-113 | the clean-up never lengthens the text and leaves no whitespace at either end |
| Sanitizer.Strip | backend/src/routes/ai.ts:104-107 | the bold and the italic replace never lengthen the text |
| Sanitizer.Bullets | backend/src/routes/ai.ts:110 | the bullet replace never lengthens the text, although each match writes two characters |
| Sanitizer.CloseFromSpec | backend/src/routes/ai.ts:104 | the lazy `(.*?)` closes at a marker exactly when no line terminator and no earlier marker lies between: the nearest closing marker on the same line |
| Sanitizer.PairAtSpec | backend/src/routes/ai.ts:104 | one attempt of `m(.*?)m` succeeds at a position exactly when an opening marker there and a closing marker form a pair on one line with no marker between |
| Sanitizer.StripShift | backend/src/routes/ai.ts:104-107 | the emphasis replace looks only forward: scanning `a + b` from inside `b` gives the scan of `b` |
| Sanitizer.StripLines | backend/src/routes/ai.ts:104-107 | the emphasis replace works line by line: after a line terminator the two parts are cleaned separately |
| Sanitizer.StripPair | backend/src/routes/ai.ts:104-107 | a marker pair around text on one line is deleted and the inner text kept |
| Sanitizer.StripLone | backend/src/routes/ai.ts:104-107 | a lone `*` at the start of the text, with no asterisk after it, is kept and so is all that follows |
| Sanitizer.StripLoneMarker | backend/src/routes/ai.ts:104-107 | anywhere in the text, a marker with no closing marker after it on its line is copied whole, and the scan resumes right after it |
| Sanitizer.StripUnchanged | backend/src/routes/ai.ts:104-107 | a replace step leaves the text unchanged exactly when no marker pair occurs in it |
| Sanitizer.StripKeepsText | backend/src/routes/ai.ts:104-107 | the emphasis replace deletes asterisks only: the text without asterisks is the same before and after |
| Sanitizer.LoneStarNotBold | backend/src/routes/ai.ts:104 | a single asterisk followed by another character is not a bold marker |
| Sanitizer.ItalicNearest | backend/src/routes/ai.ts:107 | in `*a*b*` the first marker pairs with the nearest one, leaving `ab*` |
| Sanitizer.ItalicAcrossLines | backend/src/routes/ai.ts:107 | italic markers on different lines do not pair and are kept |
| Sanitizer.BulletAtSpec | backend/src/routes/ai.ts:110 | one attempt of `^\s*\*\s+` succeeds, ending at `f`, exactly when the position is a line start followed by whitespace, one asterisk and a maximal non-empty whitespace run ending at `f` |
| Sanitizer.BulletsShift | backend/src/routes/ai.ts:110 | after a line terminator, the bullet replace of `a + b` continues as the bullet replace of `b` |
| Sanitizer.BulletsItem | backend/src/routes/ai.ts:110 | a line `* text` becomes the glyph, a space and `text`, and the scan continues after its line break |
| Sanitizer.BulletsNoStar | backend/src/routes/ai.ts:110 | text without asterisks passes the bullet replace unchanged |
| Sanitizer.BulletsKeepText | backend/src/routes/ai.ts:110 | the bullet replace keeps every character of running text, in order |
| Sanitizer.BulletAbsorbsBlankLine | backend/src/routes/ai.ts:110 | a blank line before a bullet item is swallowed by the match, so the line count drops |
| Sanitizer.BulletJoinsNextLine | backend/src/routes/ai.ts:110 | a bare `*` at the end of a line swallows the line break and the next line becomes an item |
| Sanitizer.SanitizeKeepsText | backend/src/routes/ai.ts:102-113 | the running text (the characters other than whitespace, asterisks and the bullet glyph, in order) of the answer equals that of the model's text |
| Sanitizer.SanitizeStarFree | backend/src/routes/ai.ts:102-113 | text without asterisks is only trimmed |
| Sanitizer.SanitizePlain | backend/src/routes/ai.ts:102-113 | text without asterisks or outer whitespace passes the clean-up unchanged |
| Sanitizer.StripLeavesNoPair | backend/src/routes/ai.ts:107 | after the italic replace no asterisk has another asterisk after it on its line, so no italic pair is left |
| Sanitizer.ItalicFreeBoldFree | backend/src/routes/ai.ts:104-107 | a text without an italic pair has no bold pair either |
| Sanitizer.BulletsKeepNoPair | backend/src/routes/ai.ts:110 | the bullet replace, although it can join lines, never puts two asterisks on one line |
| Sanitizer.BulletsLeaveNoMatch | backend/src/routes/ai.ts:110 | the output of the bullet replace has no position where `^\s*\*\s+` matches |
| Sanitizer.BulletsUnchanged | backend/src/routes/ai.ts:110 | the bullet replace leaves a text unchanged when the pattern matches nowhere in it |
| Sanitizer.TrimKeepsClean | backend/src/routes/ai.ts:113 | `trim` creates neither an italic pair nor a bullet match, even at the new first line start |
| Sanitizer.SanitizeIdempotent | backend/src/routes/ai.ts:102-113 | cleaning an answer that was already cleaned gives it back unchanged |
| Sanitizer.SanitizeShape | backend/src/routes/ai.ts:102-113 | any answer shaped as a bold word, a line with one italic span, and two list items comes out with the markers removed and both items bulleted |
| Sanitizer.SanitizeExample | backend/src/routes/ai.ts:104-113 | the answer `**Start** a *lean* business.` plus two `* ` items becomes `Start a lean business.` plus two `• ` items |
| JsText.Trim | backend/src/routes/ai.ts:113 | `trim` never lengthens the text and leaves no whitespace at either end |
| JsText.TrimSlice | backend/src/routes/ai.ts:113 | `trim` cuts only whitespace, from both ends, and keeps the middle as it is |
| JsText.TrimBlank | frontend/src/pages/AskAI.tsx:42 | `trim` gives the empty text exactly when the text is whitespace only |
| JsText.TrimKeepsInner | backend/src/routes/ai.ts:113 | a text with no whitespace at either end is its own trim |
| JsText.Split | frontend/src/components/layout/Header.tsx:44 | a split gives one piece more than the separator occurs, and no piece holds the separator |
| JsText.JoinSplit | frontend/src/components/layout/Header.tsx:44 | joining the pieces of a split on the same separator gives back the text |
| JsText.SplitJoin | frontend/src/components/layout/Header.tsx:44 | splitting a join of pieces free of the separator gives back the pieces |
| JsText.ToUpperCase | frontend/src/components/layout/Header.tsx:47 | upper-casing keeps the length, turns each lower-case ASCII letter into the capital at the same place in the alphabet, and changes no other character |
| Initials.Initials | frontend/src/components/layout/Header.tsx:42-47 | no name gives `U`; otherwise the upper-cased characters that start a word, or `U` when there are none |
| Initials.Heads | frontend/src/components/layout/Header.tsx:45-46 | the first characters of the pieces number at most the pieces, and are none exactly when every piece is empty |
| Initials.HeadsAreWordStarts | frontend/src/components/layout/Header.tsx:44-46 | the first characters of the pieces of a split on spaces are exactly the characters that start a word; empty pieces add nothing |
| Initials.NoWordIffSpaces | frontend/src/components/layout/Header.tsx:43-47 | no word starts exactly when the name is empty or all spaces |
| Initials.BlankNameFallsBack | frontend/src/components/layout/Header.tsx:47 | an empty name or a name of spaces gives `U` |
| Initials.InitialsLength | frontend/src/components/layout/Header.tsx:43-47 | the initials have at least one character and at most one more than the name has spaces |
| Initials.OneWordWithoutSpace | frontend/src/components/layout/Header.tsx:44 | only the space separates words: a name without one gives its first character, upper-cased |
| Initials.SpacedNameExample | frontend/src/components/layout/Header.tsx:43-47 | leading, doubled and trailing spaces add nothing: ` ab  cd ` gives `AC` |
| Initials.TabbedNameExample | frontend/src/components/layout/Header.tsx:44 | a tab does not separate words: `ab<TAB>cd` gives `A` |
| AskChat.BlankIsAllSpace | frontend/src/pages/AskAI.tsx:42 | an input counts as blank exactly when it is whitespace only |
| AskChat.ButtonDisabled | frontend/src/pages/AskAI.tsx:274 | the send button is disabled exactly when the input is whitespace only, the page waits, or an answer is being revealed |
| AskChat.Send | frontend/src/pages/AskAI.tsx:41-56 | a blank input changes nothing; otherwise exactly one user message with the untrimmed input is appended, that input is sent, the box is cleared and the page waits |
| AskChat.Response | frontend/src/pages/AskAI.tsx:58-71 | a successful answer appends one empty assistant message, stops waiting, starts streaming and starts a reveal at index 0; any other answer only stops waiting |
| AskChat.Failure | frontend/src/pages/AskAI.tsx:95-99 | a thrown request adds no message and stops waiting |
| AskChat.FailureAddsNothing | frontend/src/pages/AskAI.tsx:91-99 | an unsuccessful answer adds no message, and has the same effect as a thrown request |
| AskChat.Rewrite | frontend/src/pages/AskAI.tsx:78-85 | only the last message is rewritten, and only when its id matches; the list length never changes |
| AskChat.Tick | frontend/src/pages/AskAI.tsx:75-90 | a tick keeps the list length, every message but the last, the input, the waiting flag and the questions sent |
| AskChat.TickGrows | frontend/src/pages/AskAI.tsx:76-85 | a growing tick advances the index by one and shows exactly one more character of the answer |
| AskChat.TickSkipsForeign | frontend/src/pages/AskAI.tsx:81-84 | when the last message is not the one being revealed, the index still advances but no message changes |
| AskChat.RevealPrefix | frontend/src/pages/AskAI.tsx:74-85 | after `k` growing ticks the last message shows the first `index + k` characters of the answer |
| AskChat.RevealAfterResponse | frontend/src/pages/AskAI.tsx:58-85 | after `k <= |full|` ticks following a successful answer, the new message shows `full[..k]` and streaming is still on |
| AskChat.RevealEnds | frontend/src/pages/AskAI.tsx:86-89 | tick `|full| + 1` stops the interval with the whole answer shown and clears the streaming flag; the interval is then gone, so any number of later ticks leave the page unchanged |
| AskChat.EmptyAnswerEndsAtOnce | frontend/src/pages/AskAI.tsx:76-89 | an empty answer ends on its first tick with an empty message |
| AskChat.TickDecreases | frontend/src/pages/AskAI.tsx:75-90 | every tick of a running interval uses up one of a non-negative number of remaining ticks, so the reveal terminates |
| AskChat.Step | frontend/src/pages/AskAI.tsx:41-107 | on the page as written an event sends either nothing or the input as typed, which is never whitespace only; only a click or a key sends; no event removes a message or changes any but the last |
| AskChat.GuardedStep | frontend/src/pages/AskAI.tsx:274 | on the page whose key handler also checks the button's guard, an event sends only from a state where the button is enabled, and sends the input; no event removes a message or changes any but the last |
| AskChat.StepKeepsEarlier | frontend/src/pages/AskAI.tsx:41-107 | every event, on either page, keeps all messages but the last and never shortens the list |
| AskChat.RunFreezes | frontend/src/pages/AskAI.tsx:78-85 | once a message has a successor, no later event changes it |
| AskChat.RunFromInitial | frontend/src/pages/AskAI.tsx:18-26 | every reachable page has at least one message, and every running reveal's index stays within its answer's length |
| AskChat.Edit | frontend/src/pages/AskAI.tsx:265 | typing replaces the input and keeps the messages and the questions sent |
| AskChat.Click | frontend/src/pages/AskAI.tsx:273-274 | a disabled button does nothing; an enabled one sends the input |
| AskChat.ClickSendsIffEnabled | frontend/src/pages/AskAI.tsx:274 | the button sends exactly when the input is not blank and the page neither waits nor streams |
| AskChat.KeyDown | frontend/src/pages/AskAI.tsx:102-107 | any key other than Enter without Shift does nothing; Enter without Shift sends a non-blank input whatever the flags |
| AskChat.EnterSendsWhileStreaming | frontend/src/pages/AskAI.tsx:102-107 | while an answer is revealed the button is disabled, yet Enter sends the input |
| AskChat.EnterFreezesReveal | frontend/src/pages/AskAI.tsx:102-107 | that send makes the user's message last, so the answer being revealed stays at its current prefix for ever |
| AskChat.KeyDownGuarded | frontend/src/pages/AskAI.tsx:274 | with the button's guard, Enter does nothing while the button is disabled |
| AskChat.GuardedEnterIsClick | frontend/src/pages/AskAI.tsx:274 | with the guard, Enter does exactly what a click does, and sends nothing while waiting or streaming |
| AskChat.GuardedEnterKeepsReveal | frontend/src/pages/AskAI.tsx:274 | with the guard, Enter during a reveal leaves the page unchanged, so the reveal stays in step with its message |
| AskChat.GuardedSendsOnlyWhenEnabled | frontend/src/pages/AskAI.tsx:274 | on the guarded page an event sends a question only when the button is enabled, and then sends the input |

## Left out

- Authentication: the `authenticateToken` middleware is not part of this model. The caller's role arrives as `Option<string>`.
- The environment, `fetch`, the request body sent to the model, and `response.json()` are left out. The key and the outcome of the call are parameters.
- The system prompt and the generation settings are opaque constants of the outbound request; the settings are floating-point values.
- `console.error` logging is left out.
- The `errors` array of a 400 reply holds one issue kind per failure, with its message. The model does not give zod's codes, paths or full default wording.
- A candidate text that is present but not a string is left out. Calling `replace` on it would throw and end in the generic 500.
- String lengths and indices count Unicode scalar values, where JavaScript counts UTF-16 code units. This matters for the 2000-character limit on text outside the Basic Multilingual Plane, and for a reveal prefix that would split a surrogate pair.
- JsText.ToUpperCase: upper-cases the ASCII letters only, because full Unicode case mapping (one character to several, locale-free tables) is outside the model.
- The tick's updater changes the old last message object in place (`lastMessage.content = …`) and reads the closure's `currentIndex` when it runs. The model replaces the message with a new value computed from the index at the tick. The two agree because each update is applied at once.
- React runtime details are left out: the 5 ms interval period, batching of state updates, scrolling, toasts, timestamps and the initial focus. Each tick applies its update at once.
- Message ids come from `Date.now()` in the page. Here they are event parameters, so two events may reuse an id as the clock would allow.
- `handleSend` reads `response.success && response.data`. The model folds that test into the `ok` flag of `Response`.
- The rest of the header (menus, search, filters) and the other pages are JSX wiring with no logic to state.

## Findings

| source | as written | input that shows it | evidently intended | confidence | as-written member | corrected member |
|---|---|---|---|---|---|---|
| frontend/src/pages/AskAI.tsx:102-107 | Enter without Shift calls `handleSend`, which checks only that the trimmed input is not empty | an answer still being revealed (streaming on), a non-blank input, then Enter | Enter sends only when the send button is enabled (line 274), so a second question cannot interrupt a reveal | not executed | AskChat.EnterFreezesReveal | AskChat.GuardedEnterKeepsReveal |

`AskChat.Step` is the page as written and `AskChat.GuardedStep` the page with the guard. `AskChat.Run` takes
a flag that chooses between them. The run invariants (`RunFromInitial`, `RunFreezes`) are proved for both.

=== FILE: ask_chat.dfy ===
// The Ask AI chat page as a state machine: the message list, the input box,
// the waiting and streaming flags, the reveal intervals that type an answer
// out one character per tick, and the questions sent to the server.
// Message ids come from the clock in the page; here they are parameters of
// the events. Every interval tick applies its update at once.
module AskChat {
  import opened JsText

  const Greeting := "Hello! I'm your AI companion specialized in entrepreneurship and learning. How can I help you today?"

  datatype Role = User | Assistant

  datatype Message = Message(id: string, content: string, role: Role)

  /** One running reveal interval: the id of the message it writes, the whole answer,
      and how many ticks have run (the page's `currentIndex`). The message shows that many
      characters only while it is still the last one. */
  datatype Reveal = Reveal(id: string, full: string, index: nat)

  /** The page state. `sent` lists the questions handed to the server, oldest first. */
  datatype Chat = Chat(messages: seq<Message>, input: string, waiting: bool, streaming: bool,
                       intervals: seq<Reveal>, sent: seq<string>)

  const Initial := Chat([Message("1", Greeting, Assistant)], "", false, false, [], [])

  /** Every reveal's tick count stays within its answer's length. */
  predicate Good(c: Chat) {
    forall j :: 0 <= j < |c.intervals| ==> c.intervals[j].index <= |c.intervals[j].full|
  }

  /** `!input.trim()`. */
  predicate Blank(s: string) {
    Trim(s) == []
  }

  lemma BlankIsAllSpace(s: string)
    ensures Blank(s) <==> AllSpace(s)
  {
    TrimBlank(s);
  }

  // ---------------------------------------------------------------------
  // Transitions

  /** `handleSend` up to the request: a blank input is ignored; otherwise the input, untrimmed,
      becomes a user message and is sent, the box is cleared and the page waits. */
  function Send(c: Chat, userId: string): (r: Chat)
    ensures Blank(c.input) ==> r == c
    ensures !Blank(c.input) ==> r.sent == c.sent + [c.input] && r.input == [] && r.waiting
    ensures !Blank(c.input) ==> r.messages == c.messages + [Message(userId, c.input, User)]
    ensures r.streaming == c.streaming && r.intervals == c.intervals
  {
    if Blank(c.input) then c
    else c.(messages := c.messages + [Message(userId, c.input, User)], input := [], waiting := true,
            sent := c.sent + [c.input])
  }

  /** The server's answer. A successful one appends an empty assistant message and starts
      revealing `full` into it; any other one only stops the waiting indicator. */
  function Response(c: Chat, ok: bool, full: string, aiId: string): (r: Chat)
    ensures !r.waiting && r.input == c.input && r.sent == c.sent
    ensures ok ==> r.messages == c.messages + [Message(aiId, [], Assistant)] && r.streaming
    ensures ok ==> r.intervals == c.intervals + [Reveal(aiId, full, 0)]
    ensures !ok ==> r == c.(waiting := false)
  {
    if ok then
      c.(messages := c.messages + [Message(aiId, [], Assistant)], waiting := false, streaming := true,
         intervals := c.intervals + [Reveal(aiId, full, 0)])
    else c.(waiting := false)
  }

  /** The request threw: only the waiting indicator stops. */
  function Failure(c: Chat): (r: Chat)
    ensures r.messages == c.messages && r.intervals == c.intervals && r.sent == c.sent && !r.waiting
  {
    c.(waiting := false)
  }

  /** The last message gets `text` if its id is `id`; otherwise nothing changes. */
  function Rewrite(ms: seq<Message>, id: string, text: string): (r: seq<Message>)
    ensures |r| == |ms|
    ensures forall i :: 0 <= i < |ms| - 1 ==> r[i] == ms[i]
    ensures |ms| > 0 && ms[|ms| - 1].id == id ==> r[|ms| - 1] == ms[|ms| - 1].(content := text)
    ensures !(|ms| > 0 && ms[|ms| - 1].id == id) ==> r == ms
  {
    if |ms| > 0 && ms[|ms| - 1].id == id then ms[..|ms| - 1] + [ms[|ms| - 1].(content := text)] else ms
  }

  /** One tick of the `j`-th running interval. While its index is below the answer's length it
      advances the index and writes that many characters into the last message, if that message is
      still the one it writes; once the index reaches the length it stops itself and clears the
      streaming flag. */
  function Tick(c: Chat, j: nat): (r: Chat)
    ensures |r.messages| == |c.messages|
    ensures forall i :: 0 <= i < |c.messages| - 1 ==> r.messages[i] == c.messages[i]
    ensures r.input == c.input && r.waiting == c.waiting && r.sent == c.sent
  {
    if j >= |c.intervals| then c
    else
      var v := c.intervals[j];
      if v.index < |v.full| then
        c.(messages := Rewrite(c.messages, v.id, v.full[..v.index + 1]),
           intervals := c.intervals[j := v.(index := v.index + 1)])
      else
        c.(streaming := false, intervals := c.intervals[..j] + c.intervals[j + 1..])
  }

  /** The text box changed. */
  function Edit(c: Chat, text: string): (r: Chat)
    ensures r.input == text && r.messages == c.messages && r.sent == c.sent
  {
    c.(input := text)
  }

  /** The send button's `disabled` attribute. */
  function ButtonDisabled(c: Chat): (r: bool)
    ensures r <==> AllSpace(c.input) || c.waiting || c.streaming
  {
    BlankIsAllSpace(c.input);
    Blank(c.input) || c.waiting || c.streaming
  }

  /** A click on the send button; a disabled button does nothing. */
  function Click(c: Chat, userId: string): (r: Chat)
    ensures ButtonDisabled(c) ==> r == c
    ensures !ButtonDisabled(c) ==> r.sent == c.sent + [c.input]
  {
    if ButtonDisabled(c) then c else Send(c, userId)
  }

  /** `handleKeyDown` as written: Enter without Shift calls `handleSend` whatever the flags say. */
  function KeyDown(c: Chat, enter: bool, shift: bool, userId: string): (r: Chat)
    ensures !(enter && !shift) ==> r == c
    ensures enter && !shift && !Blank(c.input) ==> r.sent == c.sent + [c.input]
  {
    if enter && !shift then Send(c, userId) else c
  }

  /** `handleKeyDown` with the button's guard, as the disabled button implies was intended. */
  function KeyDownGuarded(c: Chat, enter: bool, shift: bool, userId: string): (r: Chat)
    ensures ButtonDisabled(c) ==> r == c
    ensures enter && !shift && !ButtonDisabled(c) ==> r.sent == c.sent + [c.input]
  {
    if enter && !shift && !ButtonDisabled(c) then Send(c, userId) else c
  }

  datatype Event =
    | Typed(text: string)
    | Clicked(userId: string)
    | KeyPressed(enter: bool, shift: bool, userId: string)
    | Replied(ok: bool, full: string, aiId: string)
    | Threw
    | Ticked(j: nat)

  /** The page as written. Only a click or a key sends, and it sends the input as typed; no event
      removes a message or changes any but the last. */
  function Step(c: Chat, e: Event): (r: Chat)
    ensures r.sent == c.sent || (r.sent == c.sent + [c.input] && !AllSpace(c.input))
    ensures r.sent != c.sent ==> e.Clicked? || e.KeyPressed?
    ensures |r.messages| >= |c.messages|
    ensures forall i :: 0 <= i < |c.messages| - 1 ==> r.messages[i] == c.messages[i]
  {
    BlankIsAllSpace(c.input);
    match e
    case Typed(text) => Edit(c, text)
    case Clicked(userId) => Click(c, userId)
    case KeyPressed(enter, shift, userId) => KeyDown(c, enter, shift, userId)
    case Replied(ok, full, aiId) => Response(c, ok, full, aiId)
    case Threw => Failure(c)
    case Ticked(j) => Tick(c, j)
  }

  /** The page with the guarded key handler: an event sends only from an enabled button's state. */
  function GuardedStep(c: Chat, e: Event): (r: Chat)
    ensures r.sent != c.sent ==> !ButtonDisabled(c) && r.sent == c.sent + [c.input]
    ensures r.sent != c.sent ==> e.Clicked? || e.KeyPressed?
    ensures |r.messages| >= |c.messages|
    ensures forall i :: 0 <= i < |c.messages| - 1 ==> r.messages[i] == c.messages[i]
  {
    match e
    case KeyPressed(enter, shift, userId) => KeyDownGuarded(c, enter, shift, userId)
    case _ => Step(c, e)
  }

  /** One event on the page as written, or on the page with the guarded key handler. */
  function StepOn(c: Chat, e: Event, guarded: bool): Chat {
    if guarded then GuardedStep(c, e) else Step(c, e)
  }

  function Run(c: Chat, es: seq<Event>, guarded: bool): Chat
    decreases |es|
  {
    if es == [] then c else Run(StepOn(c, es[0], guarded), es[1..], guarded)
  }

  function Ticks(c: Chat, j: nat, k: nat): Chat
    decreases k
  {
    if k == 0 then c else Ticks(Tick(c, j), j, k - 1)
  }

  // ---------------------------------------------------------------------
  // Sending

  /** The button sends exactly when it is enabled, and then sends the input as typed. */
  lemma ClickSendsIffEnabled(c: Chat, userId: string)
    ensures Click(c, userId).sent != c.sent <==> !ButtonDisabled(c)
    ensures !ButtonDisabled(c) ==> Click(c, userId) == Send(c, userId)
  {
  }

  /** A failed or thrown request adds no message and only stops the waiting indicator. */
  lemma FailureAddsNothing(c: Chat, full: string, aiId: string)
    ensures Response(c, false, full, aiId).messages == c.messages
    ensures Failure(c) == Response(c, false, full, aiId)
  {
  }

  // ---------------------------------------------------------------------
  // The reveal

  /** The reveal `j` writes the last message, which shows exactly the characters revealed so far. */
  predicate Synced(c: Chat, j: nat) {
    && j < |c.intervals|
    && |c.messages| > 0
    && c.messages[|c.messages| - 1].id == c.intervals[j].id
    && c.intervals[j].index <= |c.intervals[j].full|
    && c.messages[|c.messages| - 1].content == c.intervals[j].full[..c.intervals[j].index]
  }

  function LastContent(c: Chat): string
    requires |c.messages| > 0
  {
    c.messages[|c.messages| - 1].content
  }

  /** A growing tick shows one more character and keeps the reveal in step with its message. */
  lemma TickGrows(c: Chat, j: nat)
    requires Synced(c, j) && c.intervals[j].index < |c.intervals[j].full|
    ensures Synced(Tick(c, j), j)
    ensures Tick(c, j).intervals == c.intervals[j := c.intervals[j].(index := c.intervals[j].index + 1)]
    ensures |LastContent(Tick(c, j))| == |LastContent(c)| + 1
    ensures Tick(c, j).streaming == c.streaming
  {
  }

  /** A tick whose message is no longer last still advances its index but rewrites nothing. */
  lemma TickSkipsForeign(c: Chat, j: nat)
    requires j < |c.intervals| && c.intervals[j].index < |c.intervals[j].full|
    requires |c.messages| == 0 || c.messages[|c.messages| - 1].id != c.intervals[j].id
    ensures Tick(c, j).messages == c.messages
    ensures Tick(c, j).intervals[j].index == c.intervals[j].index + 1
  {
  }

  /** After `k` growing ticks the message shows the first `index + k` characters of the answer. */
  lemma {:induction false} RevealPrefix(c: Chat, j: nat, k: nat)
    requires Synced(c, j) && c.intervals[j].index + k <= |c.intervals[j].full|
    ensures Synced(Ticks(c, j, k), j)
    ensures Ticks(c, j, k).intervals == c.intervals[j := c.intervals[j].(index := c.intervals[j].index + k)]
    ensures |Ticks(c, j, k).messages| == |c.messages|
    ensures LastContent(Ticks(c, j, k)) == c.intervals[j].full[..c.intervals[j].index + k]
    ensures Ticks(c, j, k).streaming == c.streaming
    decreases k
  {
    if k > 0 {
      TickGrows(c, j);
      var d := Tick(c, j);
      RevealPrefix(d, j, k - 1);
      assert d.intervals[j].index == c.intervals[j].index + 1;
      assert d.intervals[j := d.intervals[j].(index := d.intervals[j].index + k - 1)]
          == c.intervals[j := c.intervals[j].(index := c.intervals[j].index + k)];
    }
  }

  /** A successful answer appears one character per tick: after `k <= |full|` ticks of its
      interval the new message shows `full[..k]`. */
  lemma RevealAfterResponse(c: Chat, full: string, aiId: string, k: nat)
    requires k <= |full|
    ensures var r := Ticks(Response(c, true, full, aiId), |c.intervals|, k);
      |r.messages| == |c.messages| + 1 && LastContent(r) == full[..k] && r.streaming
  {
    var d := Response(c, true, full, aiId);
    assert Synced(d, |c.intervals|);
    RevealPrefix(d, |c.intervals|, k);
  }

  /** The reveal ends: tick `|full| + 1` stops the interval with the whole answer shown,
      and clears the streaming flag; the interval is gone, so any later tick of it changes nothing. */
  lemma RevealEnds(c: Chat, full: string, aiId: string, later: nat)
    ensures var r := Ticks(Response(c, true, full, aiId), |c.intervals|, |full| + 1);
      r.intervals == c.intervals && !r.streaming && |r.messages| == |c.messages| + 1 && LastContent(r) == full
      && Ticks(r, |c.intervals|, later) == r
  {
    var j := |c.intervals|;
    var d := Response(c, true, full, aiId);
    assert Synced(d, j);
    RevealPrefix(d, j, |full|);
    var e := Ticks(d, j, |full|);
    TicksSplit(d, j, |full|);
    assert e.intervals == c.intervals + [Reveal(aiId, full, |full|)];
    assert e.intervals[..j] + e.intervals[j + 1..] == c.intervals;
    assert full[..|full|] == full;
    TicksIdle(Ticks(d, j, |full| + 1), j, later);
  }

  /** Ticks of an interval that has stopped do nothing. */
  lemma {:induction false} TicksIdle(c: Chat, j: nat, k: nat)
    requires j >= |c.intervals|
    ensures Ticks(c, j, k) == c
    decreases k
  {
    if k > 0 {
      TicksIdle(Tick(c, j), j, k - 1);
    }
  }

  lemma {:induction false} TicksSplit(c: Chat, j: nat, k: nat)
    ensures Ticks(c, j, k + 1) == Tick(Ticks(c, j, k), j)
    decreases k
  {
    if k > 0 {
      TicksSplit(Tick(c, j), j, k - 1);
    }
  }

  /** An empty answer ends on its first tick with an empty message. */
  lemma EmptyAnswerEndsAtOnce(c: Chat, aiId: string)
    ensures var r := Tick(Response(c, true, [], aiId), |c.intervals|);
      r.intervals == c.intervals && !r.streaming && LastContent(r) == []
  {
    RevealEnds(c, [], aiId, 0);
  }

  /** Ticks left before the intervals `rs` have all stopped. */
  function Remaining(rs: seq<Reveal>): int {
    if rs == [] then 0 else |rs[0].full| - rs[0].index + 1 + Remaining(rs[1..])
  }

  lemma {:induction false} RemainingUpdate(rs: seq<Reveal>, j: nat, v: Reveal)
    requires j < |rs|
    ensures Remaining(rs[j := v]) == Remaining(rs) - (|rs[j].full| - rs[j].index) + (|v.full| - v.index)
    decreases |rs|
  {
    if j > 0 {
      RemainingUpdate(rs[1..], j - 1, v);
      assert rs[j := v][1..] == rs[1..][j - 1 := v];
    }
  }

  lemma {:induction false} RemainingRemove(rs: seq<Reveal>, j: nat)
    requires j < |rs|
    ensures Remaining(rs[..j] + rs[j + 1..]) == Remaining(rs) - (|rs[j].full| - rs[j].index + 1)
    decreases |rs|
  {
    if j == 0 {
      assert rs[..0] + rs[1..] == rs[1..];
    } else {
      RemainingRemove(rs[1..], j - 1);
      assert (rs[..j] + rs[j + 1..])[1..] == rs[1..][..j - 1] + rs[1..][j..];
    }
  }

  lemma {:induction false} RemainingBound(rs: seq<Reveal>)
    requires forall j :: 0 <= j < |rs| ==> rs[j].index <= |rs[j].full|
    ensures Remaining(rs) >= |rs|
    decreases |rs|
  {
    if rs != [] {
      RemainingBound(rs[1..]);
    }
  }

  /** Every tick of a running interval uses up one of the ticks left, and never more are left
      than there are characters still to show plus one per interval: the reveal terminates. */
  lemma TickDecreases(c: Chat, j: nat)
    requires Good(c) && j < |c.intervals|
    ensures Good(Tick(c, j))
    ensures Remaining(Tick(c, j).intervals) == Remaining(c.intervals) - 1
    ensures 0 <= Remaining(Tick(c, j).intervals)
  {
    var v := c.intervals[j];
    if v.index < |v.full| {
      RemainingUpdate(c.intervals, j, v.(index := v.index + 1));
    } else {
      RemainingRemove(c.intervals, j);
    }
    RemainingBound(Tick(c, j).intervals);
  }

  // ---------------------------------------------------------------------
  // Invariants of every run

  /** Each step, on either page, keeps every message except the last one, and never shortens the list. */
  lemma StepKeepsEarlier(c: Chat, e: Event, guarded: bool)
    ensures |StepOn(c, e, guarded).messages| >= |c.messages|
    ensures forall i :: 0 <= i < |c.messages| - 1 ==> StepOn(c, e, guarded).messages[i] == c.messages[i]
    ensures Good(c) ==> Good(StepOn(c, e, guarded))
  {
    match e
    case Ticked(j) =>
      if Good(c) && j < |c.intervals| {
        TickDecreases(c, j);
      }
    case _ =>
  }

  /** Once a message has a successor, nothing the page does changes it again. */
  lemma {:induction false} RunFreezes(c: Chat, es: seq<Event>, guarded: bool, i: nat)
    requires i < |c.messages| - 1
    ensures |Run(c, es, guarded).messages| >= |c.messages|
    ensures Run(c, es, guarded).messages[i] == c.messages[i]
    decreases |es|
  {
    if es != [] {
      StepKeepsEarlier(c, es[0], guarded);
      RunFreezes(StepOn(c, es[0], guarded), es[1..], guarded, i);
    }
  }

  /** Every reachable page has at least one message, and every reveal's tick count stays within its
      answer's length. */
  lemma {:induction false} RunFromInitial(es: seq<Event>, guarded: bool)
    ensures |Run(Initial, es, guarded).messages| >= 1
    ensures Good(Run(Initial, es, guarded))
  {
    RunGood(Initial, es, guarded);
    RunLength(Initial, es, guarded);
  }

  lemma {:induction false} RunLength(c: Chat, es: seq<Event>, guarded: bool)
    ensures |Run(c, es, guarded).messages| >= |c.messages|
    decreases |es|
  {
    if es != [] {
      StepKeepsEarlier(c, es[0], guarded);
      RunLength(StepOn(c, es[0], guarded), es[1..], guarded);
    }
  }

  lemma {:induction false} RunGood(c: Chat, es: seq<Event>, guarded: bool)
    requires Good(c)
    ensures Good(Run(c, es, guarded))
    decreases |es|
  {
    if es != [] {
      StepKeepsEarlier(c, es[0], guarded);
      RunGood(StepOn(c, es[0], guarded), es[1..], guarded);
    }
  }

  // ---------------------------------------------------------------------
  // The Enter key

  /** As written, Enter sends while an answer is still being revealed, though the button is disabled. */
  lemma EnterSendsWhileStreaming(c: Chat, userId: string)
    requires c.streaming && !Blank(c.input)
    ensures ButtonDisabled(c)
    ensures KeyDown(c, true, false, userId).sent == c.sent + [c.input]
    ensures Click(c, userId) == c
  {
  }

  /** That second send freezes the answer being revealed at its current prefix: the user's
      new message becomes last, and no later event rewrites the assistant message. */
  lemma EnterFreezesReveal(c: Chat, j: nat, userId: string, es: seq<Event>)
    requires Synced(c, j) && c.streaming && !Blank(c.input)
    ensures var r := Run(Step(c, KeyPressed(true, false, userId)), es, false);
      |r.messages| > |c.messages| - 1 &&
      r.messages[|c.messages| - 1].content == c.intervals[j].full[..c.intervals[j].index]
  {
    var d := Step(c, KeyPressed(true, false, userId));
    assert d.messages[|c.messages| - 1] == c.messages[|c.messages| - 1];
    RunFreezes(d, es, false, |c.messages| - 1);
  }

  /** With the guard, Enter does what a click does, and sends nothing while the page waits or streams. */
  lemma GuardedEnterIsClick(c: Chat, userId: string)
    ensures KeyDownGuarded(c, true, false, userId) == Click(c, userId)
    ensures (c.waiting || c.streaming) ==> KeyDownGuarded(c, true, false, userId).sent == c.sent
  {
  }

  /** With the guard, Enter during a reveal changes nothing, so the answer keeps being revealed into the last message. */
  lemma GuardedEnterKeepsReveal(c: Chat, j: nat, userId: string)
    requires Synced(c, j) && c.streaming
    ensures GuardedStep(c, KeyPressed(true, false, userId)) == c
    ensures Synced(GuardedStep(c, KeyPressed(true, false, userId)), j)
  {
  }

  /** In the guarded page no event sends a question unless the button is enabled. */
  lemma GuardedSendsOnlyWhenEnabled(c: Chat, e: Event)
    requires GuardedStep(c, e).sent != c.sent
    ensures !ButtonDisabled(c)
    ensures GuardedStep(c, e).sent == c.sent + [c.input]
  {
  }
}

=== FILE: ask_route.dfy ===
// The `POST /ask` handler of the AI router: a viewer-only gate, validation of
// the request body, the key check, the call to the language model, and the
// reply built from its outcome. Authentication, the environment, the outbound
// request and JSON decoding are outside the model: the caller's role, the key
// and the outcome of the upstream call arrive as parameters.
module AskRoute {
  import opened Wrappers
  import opened JsText
  import Sanitizer

  const ViewerRole := "VIEWER"
  const MinLength := 1
  const MaxLength := 2000

  const Forbidden := "Only viewers can access Ask AI"
  const InvalidRequest := "Invalid request"
  const NotConfigured := "AI service is not configured"
  const UpstreamFailed := "Failed to get response from AI"
  const ProcessingFailed := "Failed to process your question"
  const Fallback := "No response generated"

  /** The `message` field of the request body as the schema sees it. */
  datatype Field = Missing | NotString | Text(s: string)

  /** The request body: something other than an object, or an object with its `message` field. */
  datatype Body = NotObject | Object(message: Field)

  /** One schema issue reported under `errors`. */
  datatype Issue = ExpectedObject | Required | ExpectedString | TooShort | TooLong

  function IssueMessage(i: Issue): string {
    match i
    case ExpectedObject => "Expected object"
    case Required => "Required"
    case ExpectedString => "Expected string"
    case TooShort => "Message cannot be empty"
    case TooLong => "Message too long"
  }

  /** What the call to the language model produced.
      `NotOk(body)`: a non-2xx status, with its JSON error body, or `None` when that body is not JSON.
      `Threw`: the request failed, or the 2xx body is not JSON.
      `Ok(text)`: a 2xx reply, with the first candidate's text if there is one. */
  datatype Upstream = NotOk(errorBody: Option<string>) | Threw | Ok(text: Option<string>)

  /** The JSON reply: its status, `success`, `message`, `data.message` and `errors`. */
  datatype Reply = Reply(status: int, success: bool, message: Option<string>, data: Option<string>, errors: seq<Issue>)

  /** A handled request: the reply and the question forwarded to the model, if the model was called. */
  datatype Handled = Handled(reply: Reply, sent: Option<string>)

  function Failed(status: int, message: string): Reply {
    Reply(status, false, Some(message), None, [])
  }

  /** `viewerOnly`: the user, if any, must carry exactly the role `VIEWER`. */
  function Gate(role: Option<string>): (r: Option<Reply>)
    ensures r == None <==> role == Some(ViewerRole)
    ensures r.Some? ==> r.value.status == 403 && !r.value.success
  {
    if role.Some? && role.value == ViewerRole then None else Some(Failed(403, Forbidden))
  }

  /** The schema: an object whose `message` is a string of 1 to 2000 characters, taken as it is. */
  function Validate(body: Body): (r: Result<string, seq<Issue>>)
    ensures r.Success? <==> body.Object? && body.message.Text? && MinLength <= |body.message.s| <= MaxLength
    ensures r.Success? ==> r.value == body.message.s
    ensures r.Failure? ==> |r.error| == 1
  {
    match body
    case NotObject => Failure([ExpectedObject])
    case Object(Missing) => Failure([Required])
    case Object(NotString) => Failure([ExpectedString])
    case Object(Text(s)) =>
      if |s| < MinLength then Failure([TooShort])
      else if |s| > MaxLength then Failure([TooLong])
      else Success(s)
  }

  /** `if (!apiKey)`: an absent key and an empty one are both refused. */
  predicate Configured(key: Option<string>) {
    key.Some? && key.value != []
  }

  /** The candidate text, or the fallback when it is missing or empty, after the clean-up. */
  function Answer(text: Option<string>): (r: string)
    ensures |r| <= if text.Some? && text.value != [] then |text.value| else |Fallback|
    ensures r == [] || (!IsSpace(r[0]) && !IsSpace(r[|r| - 1]))
  {
    var raw := if text.Some? && text.value != [] then text.value else Fallback;
    Sanitizer.Sanitize(raw)
  }

  /** The reply for an outcome of the upstream call. */
  function Classify(upstream: Upstream): (r: Reply)
    ensures r.success <==> upstream.Ok?
    ensures r.success ==> r.status == 200 && r.data.Some? && r.message == None
    ensures !r.success ==> r.status == 500 && r.data == None
    ensures r.errors == []
  {
    match upstream
    case NotOk(Some(_)) => Failed(500, UpstreamFailed)
    case NotOk(None) => Failed(500, ProcessingFailed)
    case Threw => Failed(500, ProcessingFailed)
    case Ok(text) => Reply(200, true, None, Some(Answer(text)), [])
  }

  /** The whole handler. */
  function Ask(role: Option<string>, body: Body, key: Option<string>, upstream: Upstream): (h: Handled)
    ensures h.reply.success <==> h.reply.status == 200
    ensures h.reply.status in {200, 400, 403, 500}
    ensures h.sent.Some? <==> role == Some(ViewerRole) && Validate(body).Success? && Configured(key)
    ensures h.sent.Some? ==> body.Object? && body.message == Text(h.sent.value)
    ensures h.reply.errors != [] <==> h.reply.status == 400
  {
    match Gate(role)
    case Some(denied) => Handled(denied, None)
    case None =>
      match Validate(body)
      case Failure(issues) => Handled(Reply(400, false, Some(InvalidRequest), None, issues), None)
      case Success(message) =>
        if !Configured(key) then Handled(Failed(500, NotConfigured), None)
        else Handled(Classify(upstream), Some(message))
  }

  // ---------------------------------------------------------------------
  // Properties of the handler

  /** Any role other than exactly `VIEWER`, or no user at all, is refused before anything else happens. */
  lemma NonViewerRefused(role: Option<string>, body: Body, key: Option<string>, upstream: Upstream)
    requires role != Some(ViewerRole)
    ensures Ask(role, body, key, upstream) == Handled(Failed(403, Forbidden), None)
  {
  }

  /** The schema accepts exactly a string message of 1 to 2000 characters and rejects every other body
      with one issue; the two length limits carry their own messages. */
  lemma ValidateCases(body: Body)
    ensures body == NotObject ==> Validate(body) == Failure([ExpectedObject])
    ensures body == Object(Missing) ==> Validate(body) == Failure([Required])
    ensures body == Object(NotString) ==> Validate(body) == Failure([ExpectedString])
    ensures body == Object(Text([])) ==> Validate(body) == Failure([TooShort])
    ensures body.Object? && body.message.Text? && |body.message.s| > MaxLength ==> Validate(body) == Failure([TooLong])
    ensures body == Object(Text([])) ==> IssueMessage(Validate(body).error[0]) == "Message cannot be empty"
    ensures body.Object? && body.message.Text? && |body.message.s| > MaxLength ==>
      IssueMessage(Validate(body).error[0]) == "Message too long"
  {
  }

  /** The length limits read the raw text: a message of whitespace only is accepted and forwarded as it is. */
  lemma BlankMessageForwarded(s: string, key: Option<string>, upstream: Upstream)
    requires AllSpace(s) && MinLength <= |s| <= MaxLength && Configured(key)
    ensures Ask(Some(ViewerRole), Object(Text(s)), key, upstream).sent == Some(s)
  {
  }

  /** An invalid body is answered with 400 and its issues whatever the key and the upstream would be:
      validation comes before the key check, and nothing is forwarded. */
  lemma InvalidBeforeKey(body: Body, key1: Option<string>, key2: Option<string>, up1: Upstream, up2: Upstream)
    requires Validate(body).Failure?
    ensures Ask(Some(ViewerRole), body, key1, up1) == Ask(Some(ViewerRole), body, key2, up2)
    ensures Ask(Some(ViewerRole), body, key1, up1) == Handled(Reply(400, false, Some(InvalidRequest), None, Validate(body).error), None)
  {
  }

  /** A valid question with an absent or empty key gets 500 and is never forwarded. */
  lemma MissingKey(body: Body, key: Option<string>, upstream: Upstream)
    requires Validate(body).Success?
    requires key == None || key == Some([])
    ensures Ask(Some(ViewerRole), body, key, upstream) == Handled(Failed(500, NotConfigured), None)
  {
  }

  /** When the model is not called, its outcome cannot matter. */
  lemma UnsentIgnoresUpstream(role: Option<string>, body: Body, key: Option<string>, up1: Upstream, up2: Upstream)
    requires Ask(role, body, key, up1).sent == None
    ensures Ask(role, body, key, up1) == Ask(role, body, key, up2)
  {
  }

  /** A non-2xx reply gets a fixed 500 reply: two different error bodies give the same reply,
      so no part of an error body reaches the caller. */
  lemma ErrorBodyHidden(body: Body, key: Option<string>, detail1: string, detail2: string)
    requires Validate(body).Success? && Configured(key)
    ensures Ask(Some(ViewerRole), body, key, NotOk(Some(detail1))).reply == Failed(500, UpstreamFailed)
    ensures Ask(Some(ViewerRole), body, key, NotOk(Some(detail1))) == Ask(Some(ViewerRole), body, key, NotOk(Some(detail2)))
  {
  }

  /** A failure anywhere else in the call, an unreadable error body included, gets the generic 500 reply. */
  lemma ThrownFailure(body: Body, key: Option<string>, upstream: Upstream)
    requires Validate(body).Success? && Configured(key)
    requires upstream == Threw || upstream == NotOk(None)
    ensures Ask(Some(ViewerRole), body, key, upstream).reply == Failed(500, ProcessingFailed)
  {
  }

  /** The fallback answer has nothing for the clean-up to change. */
  lemma FallbackClean()
    ensures Sanitizer.Sanitize(Fallback) == Fallback
  {
    assert Fallback[0] == 'N' && Fallback[|Fallback| - 1] == 'd';
    assert '*' !in Fallback;
    Sanitizer.SanitizePlain(Fallback);
  }

  /** A 2xx reply without a candidate text, or with an empty one, is a success carrying the fallback. */
  lemma EmptyAnswerFallsBack(body: Body, key: Option<string>, text: Option<string>)
    requires Validate(body).Success? && Configured(key)
    requires text == None || text == Some([])
    ensures Ask(Some(ViewerRole), body, key, Ok(text)).reply == Reply(200, true, None, Some(Fallback), [])
  {
    FallbackClean();
  }

  /** A 2xx reply with text returns that text cleaned up: no longer than the model's text,
      without outer whitespace, and with every character of running text kept in order. */
  lemma AnswerCleaned(body: Body, key: Option<string>, t: string)
    requires Validate(body).Success? && Configured(key) && t != []
    ensures Ask(Some(ViewerRole), body, key, Ok(Some(t))).reply.data == Some(Sanitizer.Sanitize(t))
    ensures Sanitizer.TextOf(Sanitizer.Sanitize(t)) == Sanitizer.TextOf(t)
  {
    Sanitizer.SanitizeKeepsText(t);
  }
}

=== FILE: initials.dfy ===
// The avatar initials of the header and of the chat page: the name split on
// single spaces, the first character of each piece, joined, upper-cased,
// and `U` when that leaves nothing.
module Initials {
  import opened Wrappers
  import opened JsText

  const Default := "U"

  /** `.map(n => n[0]).join("")`: an empty piece has no first character and adds nothing. */
  function Heads(parts: seq<string>): (r: string)
    ensures |r| <= |parts|
    ensures r == [] <==> forall k :: 0 <= k < |parts| ==> parts[k] == []
  {
    if parts == [] then []
    else (if parts[0] == [] then [] else [parts[0][0]]) + Heads(parts[1..])
  }

  /** The reference reading: the characters that start a word, a word being a run of characters
      other than the space. `afterSpace` says whether the text is preceded by a space or nothing. */
  function WordStarts(s: string, afterSpace: bool): string
  {
    if s == [] then []
    else (if s[0] != ' ' && afterSpace then [s[0]] else []) + WordStarts(s[1..], s[0] == ' ')
  }

  /** The initials of a profile's full name; `None` when there is no profile or no name. */
  function Initials(fullName: Option<string>): (r: string)
    ensures fullName.None? ==> r == Default
    ensures fullName.Some? && WordStarts(fullName.value, true) == [] ==> r == Default
    ensures fullName.Some? && WordStarts(fullName.value, true) != [] ==> r == ToUpperCase(WordStarts(fullName.value, true))
  {
    match fullName
    case None => Default
    case Some(name) =>
      var joined := ToUpperCase(Heads(Split(name, ' ')));
      HeadsAreWordStarts(name);
      if joined == [] then Default else joined
  }

  /** Splitting on spaces and taking first characters picks exactly the characters that start a word.
      The second half speaks of the pieces after the first, whose first character always follows a space. */
  lemma {:induction false} HeadsAreWordStarts(s: string)
    ensures Heads(Split(s, ' ')) == WordStarts(s, true)
    ensures Heads(Split(s, ' ')[1..]) == WordStarts(s, false)
  {
    if s != [] {
      var u := s[1..];
      var tail := Split(u, ' ');
      HeadsAreWordStarts(u);
      if s[0] == ' ' {
        assert Split(s, ' ') == [""] + tail;
        assert (["" ] + tail)[1..] == tail;
      } else {
        var parts := [[s[0]] + tail[0]] + tail[1..];
        assert Split(s, ' ') == parts;
        assert parts[1..] == tail[1..];
        assert Heads(parts) == [s[0]] + Heads(tail[1..]);
      }
    }
  }

  /** No word starts exactly when the name is nothing but spaces, the empty name included. */
  lemma {:induction false} NoWordIffSpaces(s: string)
    ensures WordStarts(s, true) == [] <==> forall i :: 0 <= i < |s| ==> s[i] == ' '
  {
    if s != [] && s[0] == ' ' {
      NoWordIffSpaces(s[1..]);
      assert forall i :: 0 < i < |s| ==> s[i] == s[1..][i - 1];
    }
  }

  /** Only the space separates words: a name without one is a single word, whatever tabs
      or other whitespace it holds. */
  lemma {:induction false} OneWordWithoutSpace(s: string)
    requires s != [] && ' ' !in s
    ensures WordStarts(s, true) == [s[0]]
    ensures Initials(Some(s)) == ToUpperCase([s[0]])
  {
    assert ' ' !in s[1..] by {
      forall x | x in s[1..] ensures x != ' ' {
        assert x in s;
      }
    }
    NoStartsInside(s[1..]);
  }

  lemma {:induction false} NoStartsInside(s: string)
    requires ' ' !in s
    ensures WordStarts(s, false) == []
  {
    if s != [] {
      assert ' ' !in s[1..] by {
        forall x | x in s[1..] ensures x != ' ' {
          assert x in s;
        }
      }
      NoStartsInside(s[1..]);
    }
  }

  /** A name yields at least one and at most one character more than it has spaces. */
  lemma InitialsLength(s: string)
    ensures 1 <= |Initials(Some(s))| <= Count(s, ' ') + 1
  {
    HeadsAreWordStarts(s);
  }

  /** An empty name and a name of spaces only both fall back to `U`. */
  lemma BlankNameFallsBack(s: string)
    requires forall i :: 0 <= i < |s| ==> s[i] == ' '
    ensures Initials(Some(s)) == Default
  {
    NoWordIffSpaces(s);
  }

  lemma SpacedWordStarts()
    ensures WordStarts(" ab  cd ", true) == "ac"
  {
    SpacedSecondWord();
    assert WordStarts("b  cd ", false) == "c";
    assert WordStarts("ab  cd ", true) == "ac";
  }

  lemma SpacedSecondWord()
    ensures WordStarts("  cd ", false) == "c"
  {
    assert WordStarts(" ", false) == [];
    assert WordStarts("d ", false) == [];
    assert WordStarts("cd ", true) == "c";
    assert WordStarts(" cd ", true) == "c";
  }

  lemma InitialsOfStarts(s: string, w: string)
    requires WordStarts(s, true) == w && w != []
    ensures Initials(Some(s)) == ToUpperCase(w)
  {
  }

  /** Doubled, leading and trailing spaces give empty pieces, which add nothing. */
  lemma SpacedNameExample()
    ensures Initials(Some(" ab  cd ")) == "AC"
  {
    SpacedWordStarts();
    InitialsOfStarts(" ab  cd ", "ac");
    assert ToUpperCase("ac") == "AC";
  }

  /** A tab does not separate words. */
  lemma TabbedNameExample()
    ensures Initials(Some("ab\tcd")) == "A"
  {
    OneWordWithoutSpace("ab\tcd");
    assert ToUpperCase("a") == "A";
  }
}

=== FILE: js_text.dfy ===
/**
 * The JavaScript string primitives the route handler and the pages rely on:
 * the regular-expression classes `\s` and `.`, `String.prototype.trim`,
 * `split` with a one-character separator, `join` and `toUpperCase`.
 * A character is a Unicode scalar value.
 */
module JsText {

  /** A LineTerminator: what `.` refuses to match and after which `^` matches under the `m` flag. */
  predicate IsLineTerminator(c: char) {
    c == '\n' || c == '\r' || c == '\U{2028}' || c == '\U{2029}'
  }

  /** WhiteSpace or LineTerminator: the class `\s`, which is also exactly what `trim` removes. */
  predicate IsSpace(c: char) {
    || IsLineTerminator(c)
    || c == '\t' || c == '\U{000B}' || c == '\U{000C}' || c == ' '
    || c == '\U{00A0}' || c == '\U{1680}' || ('\U{2000}' <= c <= '\U{200A}')
    || c == '\U{202F}' || c == '\U{205F}' || c == '\U{3000}' || c == '\U{FEFF}'
  }

  predicate AllSpace(s: string) {
    forall i :: 0 <= i < |s| ==> IsSpace(s[i])
  }

  /** No line terminator occurs in `s`: `.` matches each of its characters. */
  predicate NoLineBreak(s: string) {
    forall i :: 0 <= i < |s| ==> !IsLineTerminator(s[i])
  }

  /** The end of the longest run of whitespace that starts at `i`: the span a greedy `\s*` takes. */
  function SkipSpace(s: string, i: nat): (r: nat)
    requires i <= |s|
    ensures i <= r <= |s|
    ensures r == |s| || !IsSpace(s[r])
    decreases |s| - i
  {
    if i == |s| || !IsSpace(s[i]) then i else SkipSpace(s, i + 1)
  }

  /** Everything `SkipSpace` passes over is whitespace. */
  lemma {:induction false} SkipSpaceRun(s: string, i: nat)
    requires i <= |s|
    ensures forall t :: i <= t < SkipSpace(s, i) ==> IsSpace(s[t])
    decreases |s| - i
  {
    if i < |s| && IsSpace(s[i]) {
      SkipSpaceRun(s, i + 1);
    }
  }

  /** The end of a whitespace run is determined: any `r` with the three properties of `SkipSpace` is it. */
  lemma {:induction false} SkipSpaceUnique(s: string, i: nat, r: nat)
    requires i <= r <= |s|
    requires forall t :: i <= t < r ==> IsSpace(s[t])
    requires r == |s| || !IsSpace(s[r])
    ensures SkipSpace(s, i) == r
    decreases r - i
  {
    if i < r {
      SkipSpaceUnique(s, i + 1, r);
    }
  }

  /** The start of the longest run of whitespace that ends at `j`, not going below `lo`. */
  function SkipSpaceBack(s: string, lo: nat, j: nat): (r: nat)
    requires lo <= j <= |s|
    ensures lo <= r <= j
    ensures r == lo || !IsSpace(s[r - 1])
    decreases j
  {
    if j == lo || !IsSpace(s[j - 1]) then j else SkipSpaceBack(s, lo, j - 1)
  }

  /** Everything `SkipSpaceBack` passes over is whitespace. */
  lemma {:induction false} SkipSpaceBackRun(s: string, lo: nat, j: nat)
    requires lo <= j <= |s|
    ensures forall t :: SkipSpaceBack(s, lo, j) <= t < j ==> IsSpace(s[t])
    decreases j
  {
    if j > lo && IsSpace(s[j - 1]) {
      SkipSpaceBackRun(s, lo, j - 1);
    }
  }

  /** `s.trim()`: the text with its leading and trailing whitespace removed. */
  function Trim(s: string): (r: string)
    ensures |r| <= |s|
    ensures r != [] ==> !IsSpace(r[0]) && !IsSpace(r[|r| - 1])
  {
    s[SkipSpace(s, 0)..SkipSpaceBack(s, SkipSpace(s, 0), |s|)]
  }

  /** Where `trim` cuts: only whitespace goes, from both ends, and nothing else changes. */
  lemma TrimSlice(s: string) returns (i: nat, j: nat)
    ensures i <= j <= |s| && Trim(s) == s[i..j] && AllSpace(s[..i]) && AllSpace(s[j..])
  {
    i := SkipSpace(s, 0);
    j := SkipSpaceBack(s, i, |s|);
    SkipSpaceRun(s, 0);
    SkipSpaceBackRun(s, i, |s|);
    assert AllSpace(s[..i]) by {
      forall t | 0 <= t < i ensures IsSpace(s[..i][t]) {
        assert s[..i][t] == s[t];
      }
    }
    assert AllSpace(s[j..]) by {
      forall t | 0 <= t < |s| - j ensures IsSpace(s[j..][t]) {
        assert s[j..][t] == s[j + t];
      }
    }
  }

  /** `trim` gives the empty text exactly when the text is all whitespace. */
  lemma TrimBlank(s: string)
    ensures Trim(s) == [] <==> AllSpace(s)
  {
    var i := SkipSpace(s, 0);
    SkipSpaceRun(s, 0);
    if i < |s| {
      SkipSpaceBackStops(s, i, |s|);
    }
  }

  /** The backward scan never passes a character that is not whitespace. */
  lemma {:induction false} SkipSpaceBackStops(s: string, lo: nat, j: nat)
    requires lo < j <= |s| && !IsSpace(s[lo])
    ensures lo < SkipSpaceBack(s, lo, j)
    decreases j
  {
    if j - 1 > lo && IsSpace(s[j - 1]) {
      SkipSpaceBackStops(s, lo, j - 1);
    }
  }

  /** Trimming a text that has no outer whitespace gives it back unchanged. */
  lemma TrimKeepsInner(s: string)
    requires s == [] || (!IsSpace(s[0]) && !IsSpace(s[|s| - 1]))
    ensures Trim(s) == s
  {
  }

  /** The number of occurrences of `c` in `s`. */
  function Count(s: string, c: char): nat
  {
    if s == [] then 0 else (if s[0] == c then 1 else 0) + Count(s[1..], c)
  }

  /** `s.split(sep)` for a one-character separator. */
  function Split(s: string, sep: char): (parts: seq<string>)
    ensures |parts| == Count(s, sep) + 1
    ensures forall k :: 0 <= k < |parts| ==> sep !in parts[k]
  {
    if s == [] then [""]
    else
      var tail := Split(s[1..], sep);
      if s[0] == sep then [""] + tail
      else [[s[0]] + tail[0]] + tail[1..]
  }

  /** `parts.join(sep)` for a one-character separator. */
  function Join(parts: seq<string>, sep: char): string
    requires |parts| >= 1
  {
    if |parts| == 1 then parts[0] else parts[0] + [sep] + Join(parts[1..], sep)
  }

  /** Splitting and joining again gives back the original text. */
  lemma {:induction false} JoinSplit(s: string, sep: char)
    ensures Join(Split(s, sep), sep) == s
  {
    if s != [] {
      var tail := Split(s[1..], sep);
      JoinSplit(s[1..], sep);
      if s[0] != sep {
        if |tail| == 1 {
          assert Join(Split(s, sep), sep) == [s[0]] + tail[0];
        } else {
          assert tail == [tail[0]] + tail[1..];
          calc {
            Join(Split(s, sep), sep);
            ([s[0]] + tail[0]) + [sep] + Join(tail[1..], sep);
            [s[0]] + (tail[0] + [sep] + Join(tail[1..], sep));
            [s[0]] + Join(tail, sep);
          }
        }
      }
    }
  }

  /** Joining pieces free of the separator and splitting again gives back the pieces. */
  lemma {:induction false} SplitJoin(parts: seq<string>, sep: char)
    requires |parts| >= 1
    requires forall k :: 0 <= k < |parts| ==> sep !in parts[k]
    ensures Split(Join(parts, sep), sep) == parts
    decreases |parts|, |parts[0]|
  {
    if |parts| == 1 {
      SplitPiece(parts[0], sep);
    } else if parts[0] == [] {
      SplitJoin(parts[1..], sep);
      SplitJoinEmptyStep(parts, sep, Join(parts[1..], sep));
    } else {
      var p := parts[0];
      var rest := [p[1..]] + parts[1..];
      assert sep !in p[1..] by {
        forall x | x in p[1..] ensures x != sep {
          assert x in p;
        }
      }
      SplitJoin(rest, sep);
      SplitJoinConsStep(parts, sep, rest, Join(rest, sep));
    }
  }

  lemma SplitJoinEmptyStep(parts: seq<string>, sep: char, j: string)
    requires |parts| >= 2 && parts[0] == []
    requires j == Join(parts[1..], sep) && Split(j, sep) == parts[1..]
    ensures Split(Join(parts, sep), sep) == parts
  {
    assert Join(parts, sep) != [] && Join(parts, sep)[0] == sep;
    assert Join(parts, sep)[1..] == Join(parts[1..], sep);
    assert Split(Join(parts, sep), sep) == [""] + parts[1..];
    assert parts == [""] + parts[1..];
  }

  lemma SplitJoinConsStep(parts: seq<string>, sep: char, rest: seq<string>, j: string)
    requires |parts| >= 2 && parts[0] != [] && parts[0][0] != sep
    requires rest == [parts[0][1..]] + parts[1..]
    requires j == Join(rest, sep) && Split(j, sep) == rest
    ensures Split(Join(parts, sep), sep) == parts
  {
    var t := Join(parts, sep);
    JoinCons(parts, sep, rest);
    assert Split(t, sep) == [[t[0]] + rest[0]] + rest[1..];
    ConsParts(parts, rest);
  }

  /** A join whose first piece is not empty starts with that piece's first character. */
  lemma JoinCons(parts: seq<string>, sep: char, rest: seq<string>)
    requires |parts| >= 2 && parts[0] != []
    requires rest == [parts[0][1..]] + parts[1..]
    ensures Join(parts, sep) != [] && Join(parts, sep)[0] == parts[0][0]
    ensures Join(parts, sep)[1..] == Join(rest, sep)
  {
    var p := parts[0];
    assert rest[1..] == parts[1..];
    var u := [sep] + Join(parts[1..], sep);
    assert (p + u)[0] == p[0] && (p + u)[1..] == p[1..] + u;
    assert Join(parts, sep) == p + u;
    assert Join(rest, sep) == p[1..] + u;
  }

  lemma ConsParts(parts: seq<string>, rest: seq<string>)
    requires |parts| >= 2 && parts[0] != []
    requires rest == [parts[0][1..]] + parts[1..]
    ensures [[parts[0][0]] + rest[0]] + rest[1..] == parts
  {
    assert parts[0] == [parts[0][0]] + parts[0][1..];
    assert rest[1..] == parts[1..];
  }

  /** A text free of the separator is split into itself alone. */
  lemma {:induction false} SplitPiece(s: string, sep: char)
    requires sep !in s
    ensures Split(s, sep) == [s]
  {
    if s != [] {
      assert sep !in s[1..] by {
        forall x | x in s[1..] ensures x != sep {
          assert x in s;
        }
      }
      SplitPiece(s[1..], sep);
      assert s == [s[0]] + s[1..];
    }
  }

  /** The upper case of one character, for the ASCII letters; every other character is kept. */
  function UpperChar(c: char): (u: char)
  {
    if 'a' <= c <= 'z' then (c as int - 32) as char else c
  }

  /** The capital letters, in alphabetical order. */
  const Capitals := "ABCDEFGHIJKLMNOPQRSTUVWXYZ"

  /** `s.toUpperCase()` restricted to the ASCII letters: the `n`-th small letter becomes the `n`-th capital. */
  function ToUpperCase(s: string): (r: string)
    ensures |r| == |s|
    ensures forall i :: 0 <= i < |s| && 'a' <= s[i] <= 'z' ==> r[i] == Capitals[s[i] as int - 'a' as int]
    ensures forall i :: 0 <= i < |s| ==> !('a' <= r[i] <= 'z')
    ensures forall i :: 0 <= i < |s| && !('a' <= s[i] <= 'z') ==> r[i] == s[i]
  {
    seq(|s|, i requires 0 <= i < |s| => UpperChar(s[i]))
  }
}

=== FILE: sanitizer.dfy ===
// The clean-up applied to a generated answer before it is returned: three
// global regular-expression replacements followed by `trim`, with
// JavaScript's matching rules written out.
//
//   1. `/\*\*(.*?)\*\*/g` replaced by `$1`
//   2. `/\*(.*?)\*/g`     replaced by `$1`
//   3. `/^\s*\*\s+/gm`    replaced by `• `
//   4. `trim()`
//
// A global replace tries a match at a position; on success it writes the
// replacement and resumes right after the match, otherwise it copies one
// character and tries again at the next position. Every test reads the
// original text, so `^` sees the character before the position tried.
module Sanitizer {
  import opened Wrappers
  import opened JsText

  /** The two emphasis markers: `**` for bold, `*` for italic. */
  datatype Marker = Bold | Italic

  function Width(m: Marker): nat {
    if m == Bold then 2 else 1
  }

  /** The marker as text. */
  function Delim(m: Marker): (r: string)
    ensures |r| == Width(m) && r[0] == '*' && r[|r| - 1] == '*'
  {
    if m == Bold then "**" else "*"
  }

  const BulletGlyph: char := '\U{2022}'
  const Bullet := [BulletGlyph, ' ']

  /** The marker `m` occurs in `s` at position `j`. */
  predicate MarkerAt(s: string, m: Marker, j: nat) {
    j + Width(m) <= |s| && s[j] == '*' && (m == Italic || s[j + 1] == '*')
  }

  /** The lazy `(.*?)` followed by the closing marker: the nearest position at or after `j`
      where `m` occurs, provided no line terminator comes first. */
  function CloseFrom(s: string, m: Marker, j: nat): (r: Option<nat>)
    ensures r.Some? ==> j <= r.value && MarkerAt(s, m, r.value)
    decreases |s| - j
  {
    if j + Width(m) > |s| then None
    else if MarkerAt(s, m, j) then Some(j)
    else if IsLineTerminator(s[j]) then None
    else CloseFrom(s, m, j + 1)
  }

  /** One attempt of `m(.*?)m` at position `p`: where the closing marker starts, if the attempt succeeds. */
  function PairAt(s: string, m: Marker, p: nat): (r: Option<nat>)
    ensures r.Some? ==> p + Width(m) <= r.value && MarkerAt(s, m, r.value)
  {
    if MarkerAt(s, m, p) then CloseFrom(s, m, p + Width(m)) else None
  }

  /** What a match of `m(.*?)m` at `p` closing at `k` means: an opening marker, a
      closing marker, and between them neither a line terminator nor an earlier marker. */
  predicate IsPair(s: string, m: Marker, p: nat, k: nat) {
    && p + Width(m) <= k
    && MarkerAt(s, m, p)
    && MarkerAt(s, m, k)
    && forall t :: p + Width(m) <= t < k ==> !IsLineTerminator(s[t]) && !MarkerAt(s, m, t)
  }

  /** What the attempt of step 1 or 2 at `p` writes: the inner text of a match, or the character itself. */
  function StripOut(s: string, m: Marker, p: nat): string
    requires p < |s|
  {
    var o := PairAt(s, m, p);
    if o.Some? then s[p + Width(m)..o.value] else [s[p]]
  }

  /** Where the scan resumes after the attempt at `p`: after the closing marker of a match, or at the next character. */
  function StripNext(s: string, m: Marker, p: nat): (r: nat)
    requires p < |s|
    ensures p < r <= |s|
  {
    var o := PairAt(s, m, p);
    if o.Some? then o.value + Width(m) else p + 1
  }

  /** The global replace of `m(.*?)m` by its inner text, scanning from `p`. */
  function StripFrom(s: string, m: Marker, p: nat): (r: string)
    requires p <= |s|
    decreases |s| - p
  {
    if p == |s| then [] else StripOut(s, m, p) + StripFrom(s, m, StripNext(s, m, p))
  }

  /** Steps 1 and 2: every `m`-delimited span loses its two markers, so the text never grows. */
  function Strip(s: string, m: Marker): (r: string)
    ensures |r| <= |s|
  {
    StripFromLength(s, m, 0);
    StripFrom(s, m, 0)
  }

  /** `^` under the `m` flag: the start of the text, or right after a line terminator. */
  predicate LineStart(s: string, p: nat) {
    p == 0 || (p <= |s| && IsLineTerminator(s[p - 1]))
  }

  /** One attempt of `^\s*\*\s+` at `p`: where the match ends, if it succeeds. Since `*` is not
      whitespace, the `\*` can only sit where the greedy `\s*` stops, and the trailing `\s+` is greedy. */
  function BulletAt(s: string, p: nat): (r: Option<nat>)
    requires p <= |s|
    ensures r.Some? ==> p + 2 <= r.value <= |s|
  {
    if !LineStart(s, p) then None
    else
      var e := SkipSpace(s, p);
      if e + 1 < |s| && s[e] == '*' && IsSpace(s[e + 1]) then Some(SkipSpace(s, e + 1)) else None
  }

  /** What a match of `^\s*\*\s+` from `p` to `f` means: a line start, whitespace, one
      asterisk, at least one whitespace character, and no whitespace right after. */
  predicate IsBullet(s: string, p: nat, f: nat) {
    && LineStart(s, p)
    && f <= |s|
    && (exists e :: p <= e && e + 1 < f && s[e] == '*' && AllSpace(s[p..e]) && AllSpace(s[e + 1..f]))
    && (f == |s| || !IsSpace(s[f]))
  }

  /** What the attempt of step 3 at `p` writes: the glyph and a space for a match, or the character itself. */
  function BulletOut(s: string, p: nat): string
    requires p < |s|
  {
    if BulletAt(s, p).Some? then Bullet else [s[p]]
  }

  /** Where the scan resumes after the attempt at `p`: after the match, or at the next character. */
  function BulletNext(s: string, p: nat): (r: nat)
    requires p < |s|
    ensures p < r <= |s|
  {
    var o := BulletAt(s, p);
    if o.Some? then o.value else p + 1
  }

  /** The global replace of `^\s*\*\s+` by a bullet glyph and a space, scanning from `p`. */
  function BulletsFrom(s: string, p: nat): (r: string)
    requires p <= |s|
    decreases |s| - p
  {
    if p == |s| then [] else BulletOut(s, p) + BulletsFrom(s, BulletNext(s, p))
  }

  /** Step 3: a match is at least two characters long and becomes two, so the text never grows. */
  function Bullets(s: string): (r: string)
    ensures |r| <= |s|
  {
    BulletsFromLength(s, 0);
    BulletsFrom(s, 0)
  }

  /** The whole clean-up: it never lengthens the text, and leaves no outer whitespace. */
  function Sanitize(raw: string): (r: string)
    ensures |r| <= |raw|
    ensures r == [] || (!IsSpace(r[0]) && !IsSpace(r[|r| - 1]))
  {
    Trim(Bullets(Strip(Strip(raw, Bold), Italic)))
  }

  /** A character of running text: not whitespace, not an asterisk, not the bullet glyph. */
  predicate IsText(c: char) {
    !IsSpace(c) && c != '*' && c != BulletGlyph
  }

  /** `s` with its asterisks removed. */
  function Unstarred(s: string): string
  {
    if s == [] then [] else (if s[0] == '*' then [] else [s[0]]) + Unstarred(s[1..])
  }

  /** The characters of running text in `s`, in order. */
  function TextOf(s: string): string
  {
    if s == [] then [] else (if IsText(s[0]) then [s[0]] else []) + TextOf(s[1..])
  }

  /** No attempt of `m(.*?)m` succeeds anywhere in `s`. */
  predicate Unpaired(s: string, m: Marker)
  {
    forall p :: 0 <= p < |s| ==> PairAt(s, m, p).None?
  }

  function Shift(o: Option<nat>, d: nat): Option<nat> {
    if o.Some? then Some(d + o.value) else None
  }

  // ---------------------------------------------------------------------
  // Steps 1 and 2: what a match is

  /** The scan for the closing marker finds exactly the nearest marker reachable without a line terminator. */
  lemma {:induction false} CloseFromSpec(s: string, m: Marker, j: nat, k: nat)
    ensures CloseFrom(s, m, j) == Some(k) <==>
      j <= k && MarkerAt(s, m, k) && forall t :: j <= t < k ==> !IsLineTerminator(s[t]) && !MarkerAt(s, m, t)
    decreases |s| - j
  {
    if j + Width(m) > |s| || MarkerAt(s, m, j) {
    } else if IsLineTerminator(s[j]) {
      if j <= k && MarkerAt(s, m, k) {
        assert j < k;
      }
    } else {
      CloseFromSpec(s, m, j + 1, k);
      if j <= k && MarkerAt(s, m, k) {
        assert j < k;
      }
    }
  }

  /** A successful attempt of `m(.*?)m` at `p` is exactly a pair in the sense of `IsPair`: the
      closing marker is the nearest one, and the two never enclose a line terminator. */
  lemma PairAtSpec(s: string, m: Marker, p: nat, k: nat)
    ensures PairAt(s, m, p) == Some(k) <==> IsPair(s, m, p, k)
  {
    CloseFromSpec(s, m, p + Width(m), k);
  }

  lemma MarkerShift(a: string, b: string, m: Marker, j: nat)
    ensures MarkerAt(a + b, m, |a| + j) <==> MarkerAt(b, m, j)
  {
    if j + Width(m) <= |b| {
      assert (a + b)[|a| + j..|a| + j + Width(m)] == b[j..j + Width(m)];
    }
  }

  lemma {:induction false} CloseFromShift(a: string, b: string, m: Marker, j: nat)
    ensures CloseFrom(a + b, m, |a| + j) == Shift(CloseFrom(b, m, j), |a|)
    decreases |b| - j
  {
    MarkerShift(a, b, m, j);
    if j + Width(m) <= |b| && !MarkerAt(b, m, j) {
      assert (a + b)[|a| + j] == b[j];
      if !IsLineTerminator(b[j]) {
        CloseFromShift(a, b, m, j + 1);
      }
    }
  }

  lemma PairAtShift(a: string, b: string, m: Marker, p: nat)
    ensures PairAt(a + b, m, |a| + p) == Shift(PairAt(b, m, p), |a|)
  {
    MarkerShift(a, b, m, p);
    CloseFromShift(a, b, m, p + Width(m));
  }

  lemma PairShift(a: string, b: string, m: Marker, q: nat, k: nat)
    requires PairAt(b, m, q) == Some(k)
    ensures PairAt(a + b, m, |a| + q) == Some(|a| + k)
  {
    PairAtShift(a, b, m, q);
  }

  lemma NoPairShift(a: string, b: string, m: Marker, q: nat)
    requires PairAt(b, m, q) == None
    ensures PairAt(a + b, m, |a| + q) == None
  {
    PairAtShift(a, b, m, q);
  }

  /** An attempt inside `b` reads only `b`: it writes the same text and resumes at the same place. */
  lemma StripStepShift(a: string, b: string, m: Marker, q: nat)
    requires q < |b|
    ensures StripNext(a + b, m, |a| + q) == |a| + StripNext(b, m, q)
    ensures StripOut(a + b, m, |a| + q) == StripOut(b, m, q)
  {
    var o := PairAt(b, m, q);
    if o.Some? {
      PairShift(a, b, m, q, o.value);
      assert (a + b)[|a| + q + Width(m)..|a| + o.value] == b[q + Width(m)..o.value];
    } else {
      NoPairShift(a, b, m, q);
      assert (a + b)[|a| + q] == b[q];
    }
  }

  /** Steps 1 and 2 look only forward: the scan of `a + b` from inside `b` is the scan of `b`. */
  lemma {:induction false} StripShift(a: string, b: string, m: Marker, q: nat)
    requires q <= |b|
    ensures StripFrom(a + b, m, |a| + q) == StripFrom(b, m, q)
    decreases |b| - q
  {
    if q < |b| {
      var n := StripNext(b, m, q);
      StripShift(a, b, m, n);
      StripStepShift(a, b, m, q);
      assert StripFrom(a + b, m, |a| + q) == StripOut(b, m, q) + StripFrom(b, m, n);
    }
  }

  lemma StripFromSkip(s: string, m: Marker, p: nat)
    requires p < |s| && PairAt(s, m, p) == None
    ensures StripFrom(s, m, p) == [s[p]] + StripFrom(s, m, p + 1)
  {
  }

  /** An attempt writes at most what it consumes, and strictly less when it matches. */
  lemma StripOutLength(s: string, m: Marker, p: nat)
    requires p < |s|
    ensures |StripOut(s, m, p)| <= StripNext(s, m, p) - p
    ensures PairAt(s, m, p).Some? ==> |StripOut(s, m, p)| < StripNext(s, m, p) - p
  {
  }

  /** Steps 1 and 2 never lengthen the text. */
  lemma {:induction false} StripFromLength(s: string, m: Marker, p: nat)
    requires p <= |s|
    ensures |StripFrom(s, m, p)| <= |s| - p
    decreases |s| - p
  {
    if p < |s| {
      StripOutLength(s, m, p);
      StripFromLength(s, m, StripNext(s, m, p));
    }
  }

  /** A marker made of asterisks covers only asterisks. */
  lemma MarkerCovers(s: string, m: Marker, j: nat, t: nat)
    requires MarkerAt(s, m, j) && j <= t < j + Width(m)
    ensures s[t] == '*'
  {
  }

  lemma MarkerStarts(s: string, m: Marker, j: nat)
    requires MarkerAt(s, m, j)
    ensures s[j] == '*'
  {
    MarkerCovers(s, m, j, j);
  }

  /** A marker made of asterisks never reaches a line terminator that follows its start. */
  lemma MarkerBeforeBreak(s: string, m: Marker, j: nat, t: nat)
    requires MarkerAt(s, m, j) && j <= t < |s| && IsLineTerminator(s[t])
    ensures j + Width(m) <= t
  {
    if t < j + Width(m) {
      MarkerCovers(s, m, j, t);
    }
  }

  /** No closing marker is found in text without asterisks. */
  lemma {:induction false} CloseFromNoStar(s: string, m: Marker, j: nat)
    requires forall t :: j <= t < |s| ==> s[t] != '*'
    ensures CloseFrom(s, m, j) == None
    decreases |s| - j
  {
    if j + Width(m) <= |s| {
      if MarkerAt(s, m, j) {
        MarkerStarts(s, m, j);
      }
      if !IsLineTerminator(s[j]) {
        CloseFromNoStar(s, m, j + 1);
      }
    }
  }

  // ---------------------------------------------------------------------
  // Steps 1 and 2: what the replace does

  /** Text without asterisks is copied unchanged. */
  lemma StripPrefix(a: string, b: string, m: Marker)
    requires '*' !in a
    ensures Strip(a + b, m) == a + Strip(b, m)
  {
    StripPrefixFrom(a, b, m, 0, Strip(a + b, m));
  }

  lemma {:induction false} StripPrefixFrom(a: string, b: string, m: Marker, i: nat, r: string)
    requires '*' !in a && i <= |a|
    requires r == StripFrom(a + b, m, i)
    ensures r == a[i..] + Strip(b, m)
    decreases |a| - i
  {
    if i == |a| {
      StripPrefixEnd(a, b, m, r);
      EmptyTail(a, r);
    } else {
      StripPrefixFrom(a, b, m, i + 1, StripFrom(a + b, m, i + 1));
      StripPrefixStep(a, b, m, i, r, Strip(b, m));
    }
  }

  lemma StripPrefixEnd(a: string, b: string, m: Marker, r: string)
    requires r == StripFrom(a + b, m, |a|)
    ensures r == Strip(b, m)
  {
    StripShift(a, b, m, 0);
  }

  lemma EmptyTail(a: string, r: string)
    ensures a[|a|..] + r == r
  {
    assert a[|a|..] == [];
  }

  lemma StripPrefixStep(a: string, b: string, m: Marker, i: nat, r: string, tail: string)
    requires '*' !in a && i < |a|
    requires StripFrom(a + b, m, i + 1) == a[i + 1..] + tail
    requires r == StripFrom(a + b, m, i)
    ensures r == a[i..] + tail
  {
    assert (a + b)[i] == a[i];
    if MarkerAt(a + b, m, i) {
      MarkerStarts(a + b, m, i);
    }
    StripFromSkip(a + b, m, i);
    ConsSlice(a, i, |a|, tail);
    assert a[i..|a|] == a[i..] && a[i + 1..|a|] == a[i + 1..];
  }

  /** A marker with no closing marker after it is kept. */
  lemma StripLone(x: string, m: Marker)
    requires '*' !in x
    ensures Strip(['*'] + x, m) == ['*'] + x
  {
    var s := ['*'] + x;
    forall t | Width(m) <= t < |s|
      ensures s[t] != '*'
    {
      assert s[t] == x[t - 1];
    }
    CloseFromNoStar(s, m, Width(m));
    assert PairAt(s, m, 0) == None;
    StripShift(['*'], x, m, 0);
    StripPrefix(x, [], m);
    assert x + [] == x;
  }

  /** Anywhere in the text, a marker with no closing marker after it on its line is kept whole,
      and the scan goes on right after it. */
  lemma StripLoneMarker(s: string, m: Marker, p: nat)
    requires MarkerAt(s, m, p) && CloseFrom(s, m, p + Width(m)) == None
    ensures StripFrom(s, m, p) == Delim(m) + StripFrom(s, m, p + Width(m))
  {
    StripFromSkip(s, m, p);
    if m == Bold {
      if MarkerAt(s, m, p + 1) {
        assert CloseFrom(s, m, p + 3) == None by {
          assert s[p + 2] == '*';
        }
      }
      StripFromSkip(s, m, p + 1);
      assert Delim(m) == [s[p]] + [s[p + 1]];
    }
  }

  /** One marker pair around text on one line is deleted, keeping the inner text. */
  lemma StripPair(x: string, rest: string, m: Marker)
    requires '*' !in x && NoLineBreak(x)
    ensures Strip(Delim(m) + x + Delim(m) + rest, m) == x + Strip(rest, m)
  {
    var d := Delim(m);
    var s := d + x + d + rest;
    var k := Width(m) + |x|;
    assert s[0] == '*' && s[k] == '*';
    assert m == Bold ==> s[1] == '*' && s[k + 1] == '*';
    forall t | Width(m) <= t < k
      ensures !IsLineTerminator(s[t]) && !MarkerAt(s, m, t)
    {
      assert s[t] == x[t - Width(m)];
      if MarkerAt(s, m, t) {
        MarkerStarts(s, m, t);
      }
    }
    assert IsPair(s, m, 0, k);
    PairAtSpec(s, m, 0, k);
    assert s[Width(m)..k] == x;
    assert s == (d + x + d) + rest;
    StripShift(d + x + d, rest, m, 0);
  }

  /** Markers never pair across a line terminator: the replace works line by line. */
  lemma StripLines(a: string, b: string, m: Marker)
    requires a != [] && IsLineTerminator(a[|a| - 1])
    ensures Strip(a + b, m) == Strip(a, m) + Strip(b, m)
  {
    StripLinesFrom(a, b, m, 0);
  }

  lemma {:induction false} StripLinesFrom(a: string, b: string, m: Marker, p: nat)
    requires a != [] && IsLineTerminator(a[|a| - 1]) && p <= |a|
    ensures StripFrom(a + b, m, p) == StripFrom(a, m, p) + Strip(b, m)
    decreases |a| - p
  {
    if p == |a| {
      StripLinesEnd(a, b, m);
    } else {
      StripLinesFrom(a, b, m, StripNext(a, m, p));
      StripLinesCons(a, b, m, p);
    }
  }

  lemma StripLinesEnd(a: string, b: string, m: Marker)
    ensures StripFrom(a + b, m, |a|) == StripFrom(a, m, |a|) + Strip(b, m)
  {
    StripShift(a, b, m, 0);
    assert StripFrom(a, m, |a|) + Strip(b, m) == Strip(b, m);
  }

  /** One attempt inside `a`, given that the scan from where it resumes already splits. */
  lemma StripLinesCons(a: string, b: string, m: Marker, p: nat)
    requires a != [] && IsLineTerminator(a[|a| - 1]) && p < |a|
    requires StripFrom(a + b, m, StripNext(a, m, p)) == StripFrom(a, m, StripNext(a, m, p)) + Strip(b, m)
    ensures StripFrom(a + b, m, p) == StripFrom(a, m, p) + Strip(b, m)
  {
    var n := StripNext(a, m, p);
    StripLinesStep(a, b, m, p);
    assert StripFrom(a + b, m, p) == StripOut(a, m, p) + StripFrom(a + b, m, n);
    assert StripFrom(a, m, p) == StripOut(a, m, p) + StripFrom(a, m, n);
    AppendAssoc(StripOut(a, m, p), StripFrom(a, m, n), Strip(b, m));
  }

  /** An attempt of steps 1 and 2 inside a text that ends in a line terminator does not see what follows. */
  lemma StripLinesStep(a: string, b: string, m: Marker, p: nat)
    requires a != [] && IsLineTerminator(a[|a| - 1]) && p < |a|
    ensures StripNext(a + b, m, p) == StripNext(a, m, p)
    ensures StripOut(a + b, m, p) == StripOut(a, m, p)
  {
    PairAtLine(a, b, m, p);
    var o := PairAt(a, m, p);
    if o.Some? {
      assert (a + b)[p + Width(m)..o.value] == a[p + Width(m)..o.value];
    } else {
      assert (a + b)[p] == a[p];
    }
  }

  lemma AppendAssoc(x: string, y: string, z: string)
    ensures x + (y + z) == (x + y) + z
  {
  }

  /** An attempt that starts before a line terminator ends before it. */
  lemma PairAtLine(a: string, b: string, m: Marker, p: nat)
    requires a != [] && IsLineTerminator(a[|a| - 1]) && p < |a|
    ensures PairAt(a + b, m, p) == PairAt(a, m, p)
  {
    var s := a + b;
    var last := |a| - 1;
    assert s[last] == a[last];
    if p + Width(m) <= |a| {
      assert s[p..p + Width(m)] == a[p..p + Width(m)];
    }
    if MarkerAt(s, m, p) {
      MarkerBeforeBreak(s, m, p, last);
      CloseFromLine(a, b, m, p + Width(m));
    }
  }

  lemma {:induction false} CloseFromLine(a: string, b: string, m: Marker, j: nat)
    requires a != [] && IsLineTerminator(a[|a| - 1]) && j < |a|
    ensures CloseFrom(a + b, m, j) == CloseFrom(a, m, j)
    decreases |a| - j
  {
    var s := a + b;
    var last := |a| - 1;
    assert s[j] == a[j];
    assert s[last] == a[last];
    if j + Width(m) <= |a| {
      assert s[j..j + Width(m)] == a[j..j + Width(m)];
    }
    if MarkerAt(s, m, j) {
      MarkerBeforeBreak(s, m, j, last);
    } else if j < last && !IsLineTerminator(a[j]) {
      CloseFromLine(a, b, m, j + 1);
    }
  }

  lemma {:induction false} StripFromUnpaired(s: string, m: Marker, p: nat)
    requires p <= |s|
    requires forall q :: p <= q < |s| ==> PairAt(s, m, q).None?
    ensures StripFrom(s, m, p) == s[p..]
    decreases |s| - p
  {
    if p < |s| {
      StripFromUnpaired(s, m, p + 1);
      assert s[p..] == [s[p]] + s[p + 1..];
    }
  }

  lemma {:induction false} StripFromShrinks(s: string, m: Marker, p: nat, q: nat)
    requires p <= q < |s| && PairAt(s, m, q).Some?
    ensures |StripFrom(s, m, p)| < |s| - p
    decreases |s| - p
  {
    StripOutLength(s, m, p);
    if PairAt(s, m, p).Some? {
      StripFromLength(s, m, StripNext(s, m, p));
    } else {
      StripFromShrinks(s, m, p + 1, q);
    }
  }

  /** A replace step leaves the text unchanged exactly when no marker pair occurs in it. */
  lemma StripUnchanged(s: string, m: Marker)
    ensures Strip(s, m) == s <==> Unpaired(s, m)
  {
    if Unpaired(s, m) {
      StripFromUnpaired(s, m, 0);
    } else {
      var q :| 0 <= q < |s| && PairAt(s, m, q).Some?;
      StripFromShrinks(s, m, 0, q);
    }
  }

  lemma {:induction false} UnstarredConcat(a: string, b: string)
    ensures Unstarred(a + b) == Unstarred(a) + Unstarred(b)
  {
    if a != [] {
      assert (a + b)[0] == a[0];
      assert (a + b)[1..] == a[1..] + b;
      UnstarredConcat(a[1..], b);
      assert Unstarred(a + b) == Unstarred(a[..1]) + (Unstarred(a[1..]) + Unstarred(b));
    } else {
      assert a + b == b;
    }
  }

  lemma UnstarredDelim(m: Marker)
    ensures Unstarred(Delim(m)) == []
  {
    if m == Bold {
      assert Delim(m)[1..] == "*" && "*"[1..] == [];
    } else {
      assert Delim(m)[1..] == [];
    }
  }

  lemma {:induction false} StripFromKeepsText(s: string, m: Marker, p: nat)
    requires p <= |s|
    ensures Unstarred(StripFrom(s, m, p)) == Unstarred(s[p..])
    decreases |s| - p
  {
    if p < |s| {
      var n := StripNext(s, m, p);
      StripFromKeepsText(s, m, n);
      StripKeepsStep(s, m, p, n, StripFrom(s, m, n));
    }
  }

  lemma StripKeepsStep(s: string, m: Marker, p: nat, n: nat, rest: string)
    requires p < |s| && n == StripNext(s, m, p)
    requires StripFrom(s, m, n) == rest && Unstarred(rest) == Unstarred(s[n..])
    ensures Unstarred(StripFrom(s, m, p)) == Unstarred(s[p..])
  {
    var out := StripOut(s, m, p);
    StripOutKeepsText(s, m, p);
    assert StripFrom(s, m, p) == out + rest;
    UnstarredConcat(out, rest);
    UnstarredSplit(s, p, n);
  }

  lemma UnstarredSplit(s: string, p: nat, n: nat)
    requires p <= n <= |s|
    ensures Unstarred(s[p..]) == Unstarred(s[p..n]) + Unstarred(s[n..])
  {
    assert s[p..] == s[p..n] + s[n..];
    UnstarredConcat(s[p..n], s[n..]);
  }

  /** One attempt of steps 1 and 2 deletes asterisks only. */
  lemma StripOutKeepsText(s: string, m: Marker, p: nat)
    requires p < |s|
    ensures Unstarred(StripOut(s, m, p)) == Unstarred(s[p..StripNext(s, m, p)])
  {
    var o := PairAt(s, m, p);
    if o.Some? {
      PairKeepsText(s, m, p, o.value);
    } else {
      assert s[p..p + 1] == [s[p]];
    }
  }

  lemma PairKeepsText(s: string, m: Marker, p: nat, k: nat)
    requires p < |s| && PairAt(s, m, p) == Some(k)
    ensures Unstarred(s[p + Width(m)..k]) == Unstarred(s[p..k + Width(m)])
  {
    var inner := s[p + Width(m)..k];
    PairSlices(s, m, p, k);
    UnstarredDelim(m);
    UnstarredConcat(inner, Delim(m));
    UnstarredConcat(Delim(m), inner + Delim(m));
    assert inner + Delim(m) + [] == inner + Delim(m);
  }

  /** A pair with what it encloses: marker, inner text, marker. */
  lemma PairSlices(s: string, m: Marker, p: nat, k: nat)
    requires p < |s| && PairAt(s, m, p) == Some(k)
    ensures s[p..k + Width(m)] == Delim(m) + (s[p + Width(m)..k] + Delim(m))
  {
    MarkerSlice(s, m, p);
    MarkerSlice(s, m, k);
    SliceThree(s, p, p + Width(m), k, k + Width(m));
  }

  /** Where a marker occurs, the text there is the marker. */
  lemma MarkerSlice(s: string, m: Marker, j: nat)
    requires MarkerAt(s, m, j)
    ensures s[j..j + Width(m)] == Delim(m)
  {
    if m == Bold {
      assert s[j..j + 2] == [s[j], s[j + 1]];
    } else {
      assert s[j..j + 1] == [s[j]];
    }
  }

  lemma SliceThree(s: string, i: nat, j: nat, k: nat, l: nat)
    requires i <= j <= k <= l <= |s|
    ensures s[i..l] == s[i..j] + (s[j..k] + s[k..l])
  {
  }

  /** Steps 1 and 2 delete asterisks only: every other character survives, in order. */
  lemma StripKeepsText(s: string, m: Marker)
    ensures Unstarred(Strip(s, m)) == Unstarred(s)
  {
    StripFromKeepsText(s, m, 0);
  }

  // ---------------------------------------------------------------------
  // Step 3: what a match is

  /** A successful attempt of `^\s*\*\s+` at `p` ending at `f` is exactly a match in the sense of `IsBullet`. */
  lemma BulletAtSpec(s: string, p: nat, f: nat)
    requires p <= |s|
    ensures BulletAt(s, p) == Some(f) <==> IsBullet(s, p, f)
  {
    if BulletAt(s, p) == Some(f) {
      BulletAtSound(s, p, f);
    }
    if IsBullet(s, p, f) {
      BulletAtComplete(s, p, f);
    }
  }

  lemma BulletAtSound(s: string, p: nat, f: nat)
    requires p <= |s| && BulletAt(s, p) == Some(f)
    ensures IsBullet(s, p, f)
  {
    var e := SkipSpace(s, p);
    SkipSpaceRun(s, p);
    assert AllSpace(s[p..e]) by {
      forall i | 0 <= i < e - p ensures IsSpace(s[p..e][i]) {
        assert s[p..e][i] == s[p + i];
      }
    }
    var g := e + 1;
    SkipSpaceRun(s, g);
    assert AllSpace(s[g..f]) by {
      forall i | 0 <= i < f - g ensures IsSpace(s[g..f][i]) {
        assert s[g..f][i] == s[g + i];
      }
    }
  }

  lemma BulletAtComplete(s: string, p: nat, f: nat)
    requires p <= |s| && IsBullet(s, p, f)
    ensures BulletAt(s, p) == Some(f)
  {
    var e :| p <= e && e + 1 < f && s[e] == '*' && AllSpace(s[p..e]) && AllSpace(s[e + 1..f]);
    forall t | p <= t < e ensures IsSpace(s[t]) {
      assert s[p..e][t - p] == s[t];
    }
    SkipSpaceUnique(s, p, e);
    forall t | e + 1 <= t < f ensures IsSpace(s[t]) {
      assert s[e + 1..f][t - (e + 1)] == s[t];
    }
    SkipSpaceUnique(s, e + 1, f);
  }

  lemma SkipSpaceShift(a: string, b: string, i: nat)
    requires i <= |b|
    ensures SkipSpace(a + b, |a| + i) == |a| + SkipSpace(b, i)
  {
    var s := a + b;
    var r := SkipSpace(b, i);
    SkipSpaceRun(b, i);
    forall t | |a| + i <= t < |a| + r ensures IsSpace(s[t]) {
      assert s[t] == b[t - |a|];
    }
    if r < |b| {
      assert s[|a| + r] == b[r];
    }
    SkipSpaceUnique(s, |a| + i, |a| + r);
  }

  /** One attempt of step 3 at a line start, read off the end `e` of the leading whitespace. */
  lemma BulletAtIs(s: string, p: nat, e: nat, r: Option<nat>)
    requires p <= |s| && LineStart(s, p) && e == SkipSpace(s, p) && r == BulletAt(s, p)
    ensures e + 1 < |s| && s[e] == '*' && IsSpace(s[e + 1]) ==> r == Some(SkipSpace(s, e + 1))
    ensures !(e + 1 < |s| && s[e] == '*' && IsSpace(s[e + 1])) ==> r == None
  {
  }

  lemma BulletAtShift(a: string, b: string, q: nat)
    requires a == [] || IsLineTerminator(a[|a| - 1])
    requires q <= |b|
    ensures BulletAt(a + b, |a| + q) == Shift(BulletAt(b, q), |a|)
  {
    assert LineStart(a + b, |a| + q) == LineStart(b, q);
    if LineStart(b, q) {
      BulletAtShiftLine(a, b, q);
    }
  }

  lemma BulletAtShiftLine(a: string, b: string, q: nat)
    requires q <= |b| && LineStart(b, q) && LineStart(a + b, |a| + q)
    ensures BulletAt(a + b, |a| + q) == Shift(BulletAt(b, q), |a|)
  {
    var s := a + b;
    var e := SkipSpace(b, q);
    var r1 := BulletAt(s, |a| + q);
    var r2 := BulletAt(b, q);
    SkipSpaceShift(a, b, q);
    BulletAtIs(s, |a| + q, |a| + e, r1);
    BulletAtIs(b, q, e, r2);
    if e + 1 < |b| {
      BulletGuardShift(a, b, e);
      if b[e] == '*' && IsSpace(b[e + 1]) {
        assert r1 == Some(|a| + SkipSpace(b, e + 1));
      } else {
        assert r1 == None && r2 == None;
      }
    } else {
      assert r1 == None && r2 == None;
    }
  }

  /** The test after the leading whitespace reads only `b`. */
  lemma BulletGuardShift(a: string, b: string, e: nat)
    requires e + 1 < |b|
    ensures (a + b)[|a| + e] == b[e] && (a + b)[|a| + e + 1] == b[e + 1]
    ensures SkipSpace(a + b, |a| + e + 1) == |a| + SkipSpace(b, e + 1)
  {
    SkipSpaceShift(a, b, e + 1);
  }

  /** Unfolding one successful attempt of step 3 inside `b`. */
  lemma BulletShift(a: string, b: string, q: nat, f: nat)
    requires a == [] || IsLineTerminator(a[|a| - 1])
    requires q <= |b| && BulletAt(b, q) == Some(f)
    ensures BulletAt(a + b, |a| + q) == Some(|a| + f)
  {
    BulletAtShift(a, b, q);
  }

  lemma NoBulletShift(a: string, b: string, q: nat)
    requires a == [] || IsLineTerminator(a[|a| - 1])
    requires q <= |b| && BulletAt(b, q) == None
    ensures BulletAt(a + b, |a| + q) == None
  {
    BulletAtShift(a, b, q);
  }

  /** An attempt of step 3 inside `b`, after a line terminator, writes the same text and resumes at the same place. */
  lemma BulletStepShift(a: string, b: string, q: nat)
    requires a == [] || IsLineTerminator(a[|a| - 1])
    requires q < |b|
    ensures BulletNext(a + b, |a| + q) == |a| + BulletNext(b, q)
    ensures BulletOut(a + b, |a| + q) == BulletOut(b, q)
  {
    var o := BulletAt(b, q);
    if o.Some? {
      BulletShift(a, b, q, o.value);
    } else {
      NoBulletShift(a, b, q);
      assert (a + b)[|a| + q] == b[q];
    }
  }

  /** Step 3 depends on what precedes a position only through `^`: after a line terminator the scan of `a + b` is the scan of `b`. */
  lemma {:induction false} BulletsShift(a: string, b: string, q: nat)
    requires a == [] || IsLineTerminator(a[|a| - 1])
    requires q <= |b|
    ensures BulletsFrom(a + b, |a| + q) == BulletsFrom(b, q)
    decreases |b| - q
  {
    if q < |b| {
      var n := BulletNext(b, q);
      BulletsShift(a, b, n);
      BulletStepShift(a, b, q);
      assert BulletsFrom(a + b, |a| + q) == BulletOut(b, q) + BulletsFrom(b, n);
    }
  }

  /** Unfolding one failed attempt of the replace: the character is copied. */
  lemma BulletsFromSkip(s: string, p: nat)
    requires p < |s| && BulletAt(s, p) == None
    ensures BulletsFrom(s, p) == [s[p]] + BulletsFrom(s, p + 1)
  {
  }

  /** Unfolding one successful attempt of the replace. */
  lemma BulletsFromMatch(s: string, p: nat, f: nat)
    requires p < |s| && BulletAt(s, p) == Some(f)
    ensures BulletsFrom(s, p) == Bullet + BulletsFrom(s, f)
  {
  }

  /** Step 3 never lengthens the text. */
  lemma {:induction false} BulletsFromLength(s: string, p: nat)
    requires p <= |s|
    ensures |BulletsFrom(s, p)| <= |s| - p
    decreases |s| - p
  {
    if p < |s| {
      assert |BulletOut(s, p)| <= BulletNext(s, p) - p;
      BulletsFromLength(s, BulletNext(s, p));
    }
  }

  lemma NoBulletInsideLine(s: string, p: nat)
    requires 0 < p <= |s| && !IsLineTerminator(s[p - 1])
    ensures BulletAt(s, p) == None
  {
  }

  /** Away from line starts nothing is replaced: a stretch with no line terminator before its last character is copied. */
  lemma BulletsCopy(s: string, p: nat, q: nat)
    requires p <= q <= |s|
    requires p < q ==> BulletAt(s, p) == None
    requires forall i :: p <= i < q - 1 ==> !IsLineTerminator(s[i])
    ensures BulletsFrom(s, p) == s[p..q] + BulletsFrom(s, q)
  {
    BulletsCopyAt(s, p, q, BulletsFrom(s, p), BulletsFrom(s, q));
  }

  /** The induction runs on the end `q` of the stretch, so the scan from `p` is never unfolded again. */
  lemma {:induction false} BulletsCopyAt(s: string, p: nat, q: nat, r: string, tail: string)
    requires p <= q <= |s|
    requires p < q ==> BulletAt(s, p) == None
    requires forall i :: p <= i < q - 1 ==> !IsLineTerminator(s[i])
    requires r == BulletsFrom(s, p) && tail == BulletsFrom(s, q)
    ensures r == s[p..q] + tail
    decreases q - p
  {
    if p < q {
      var t1 := BulletsFrom(s, q - 1);
      BulletsCopyLast(s, p, q, t1, tail);
      BulletsCopyAt(s, p, q - 1, r, t1);
      BulletsCopyJoin(s, p, q, t1, tail, r);
    } else {
      assert s[p..q] == [];
    }
  }

  /** The last character of the stretch is copied. */
  lemma BulletsCopyLast(s: string, p: nat, q: nat, t1: string, tail: string)
    requires p < q <= |s| && BulletAt(s, p) == None
    requires forall i :: p <= i < q - 1 ==> !IsLineTerminator(s[i])
    requires t1 == BulletsFrom(s, q - 1) && tail == BulletsFrom(s, q)
    ensures t1 == [s[q - 1]] + tail
  {
    if p < q - 1 {
      NoBulletInsideLine(s, q - 1);
    }
    BulletsFromSkip(s, q - 1);
  }

  lemma BulletsCopyJoin(s: string, p: nat, q: nat, t1: string, tail: string, r: string)
    requires p < q <= |s|
    requires t1 == [s[q - 1]] + tail && r == s[p..q - 1] + t1
    ensures r == s[p..q] + tail
  {
    assert s[p..q] == s[p..q - 1] + [s[q - 1]];
  }

  lemma ConsSlice(s: string, p: nat, q: nat, tail: string)
    requires p < q <= |s|
    ensures [s[p]] + (s[p + 1..q] + tail) == s[p..q] + tail
  {
    assert s[p..q] == [s[p]] + s[p + 1..q];
  }

  // ---------------------------------------------------------------------
  // Step 3: what the replace does

  /** A line that does not start with whitespace or an asterisk is copied, with its line break. */
  lemma BulletsPlainLine(line: string, brk: char, rest: string)
    requires line != [] && !IsSpace(line[0]) && line[0] != '*' && NoLineBreak(line)
    requires IsLineTerminator(brk)
    ensures Bullets(line + [brk] + rest) == line + [brk] + Bullets(rest)
  {
    var head := line + [brk];
    var s := head + rest;
    assert s[0] == line[0];
    assert SkipSpace(s, 0) == 0;
    forall i | 0 <= i < |head| - 1 ensures !IsLineTerminator(s[i]) {
      assert s[i] == line[i];
    }
    BulletsCopy(s, 0, |head|);
    assert s[..|head|] == head;
    assert head[|head| - 1] == brk;
    BulletsShift(head, rest, 0);
  }

  lemma BulletItemHead(text: string, tail: string)
    requires text != [] && !IsSpace(text[0])
    ensures BulletAt("* " + text + tail, 0) == Some(2)
  {
    var s := "* " + text + tail;
    assert s[0] == '*' && s[1] == ' ' && s[2] == text[0];
    assert SkipSpace(s, 0) == 0;
    assert SkipSpace(s, 2) == 2;
  }

  lemma BulletItemBody(text: string, tail: string)
    requires text != [] && NoLineBreak(text)
    ensures BulletsFrom("* " + text + tail, 2) == text + BulletsFrom("* " + text + tail, 2 + |text|)
  {
    var s := "* " + text + tail;
    assert s[1] == ' ';
    assert !LineStart(s, 2);
    forall i | 2 <= i < 2 + |text| - 1 ensures !IsLineTerminator(s[i]) {
      assert s[i] == text[i - 2];
    }
    BulletsCopy(s, 2, 2 + |text|);
    assert s[2..2 + |text|] == text;
  }

  /** A line `* text` becomes `• text`, and the scan goes on after its line break. */
  lemma BulletsItem(text: string, brk: char, rest: string)
    requires text != [] && !IsSpace(text[0]) && NoLineBreak(text)
    requires IsLineTerminator(brk)
    ensures Bullets("* " + text + [brk] + rest) == Bullet + text + [brk] + Bullets(rest)
  {
    var head := "* " + text + [brk];
    var s := head + rest;
    assert "* " + text + ([brk] + rest) == s && "* " + text + [brk] + rest == s;
    BulletItemHead(text, [brk] + rest);
    BulletsFromMatch(s, 0, 2);
    BulletItemBody(text, [brk] + rest);
    assert head[1 + |text|] == text[|text| - 1] && head[2 + |text|] == brk;
    BulletItemBreak(head, rest, 2 + |text|, BulletsFrom(s, 2 + |text|), Bullets(rest));
    assert Bullet + (text + ([brk] + Bullets(rest))) == Bullet + text + [brk] + Bullets(rest);
  }

  /** After the text of an item, its line break is copied and the scan goes on with the next line. */
  lemma BulletItemBreak(head: string, rest: string, p: nat, r: string, tail: string)
    requires p + 1 == |head| && p > 0 && !IsLineTerminator(head[p - 1]) && IsLineTerminator(head[p])
    requires r == BulletsFrom(head + rest, p) && tail == Bullets(rest)
    ensures r == [head[p]] + tail
  {
    var s := head + rest;
    assert s[p] == head[p] && s[p - 1] == head[p - 1];
    BulletsFromSkip(s, p);
    BulletsShift(head, rest, 0);
  }

  /** A last line `* text` becomes `• text`. */
  lemma BulletsLastItem(text: string)
    requires text != [] && !IsSpace(text[0]) && NoLineBreak(text)
    ensures Bullets("* " + text) == Bullet + text
  {
    var s := "* " + text;
    assert s == "* " + text + [];
    BulletItemHead(text, []);
    BulletItemBody(text, []);
  }

  lemma {:induction false} BulletsFromNoStar(s: string, p: nat)
    requires '*' !in s && p <= |s|
    ensures BulletsFrom(s, p) == s[p..]
    decreases |s| - p
  {
    if p < |s| {
      var e := SkipSpace(s, p);
      if e < |s| {
        assert s[e] in s;
      }
      BulletsFromNoStar(s, p + 1);
      assert s[p..] == [s[p]] + s[p + 1..];
    }
  }

  /** Without asterisks step 3 changes nothing. */
  lemma BulletsNoStar(s: string)
    requires '*' !in s
    ensures Bullets(s) == s
  {
    BulletsFromNoStar(s, 0);
  }

  lemma {:induction false} TextOfConcat(a: string, b: string)
    ensures TextOf(a + b) == TextOf(a) + TextOf(b)
  {
    if a != [] {
      assert (a + b)[0] == a[0];
      assert (a + b)[1..] == a[1..] + b;
      TextOfConcat(a[1..], b);
      assert TextOf(a + b) == TextOf(a[..1]) + (TextOf(a[1..]) + TextOf(b));
    } else {
      assert a + b == b;
    }
  }

  lemma {:induction false} TextOfNone(s: string)
    requires forall i :: 0 <= i < |s| ==> !IsText(s[i])
    ensures TextOf(s) == []
  {
    if s != [] {
      TextOfNone(s[1..]);
    }
  }

  lemma {:induction false} BulletsFromKeepsText(s: string, p: nat)
    requires p <= |s|
    ensures TextOf(BulletsFrom(s, p)) == TextOf(s[p..])
    decreases |s| - p
  {
    if p < |s| {
      var o := BulletAt(s, p);
      if o.Some? {
        BulletsFromKeepsText(s, o.value);
        MatchKeepsText(s, p, o.value);
      } else {
        BulletsFromKeepsText(s, p + 1);
        CopyKeepsText(s, p);
      }
    }
  }

  lemma CopyKeepsText(s: string, p: nat)
    requires p < |s| && BulletAt(s, p) == None
    requires TextOf(BulletsFrom(s, p + 1)) == TextOf(s[p + 1..])
    ensures TextOf(BulletsFrom(s, p)) == TextOf(s[p..])
  {
    BulletsFromSkip(s, p);
    assert s[p..] == [s[p]] + s[p + 1..];
    TextOfConcat([s[p]], s[p + 1..]);
    TextOfConcat([s[p]], BulletsFrom(s, p + 1));
  }

  lemma MatchKeepsText(s: string, p: nat, f: nat)
    requires p < |s| && BulletAt(s, p) == Some(f)
    requires TextOf(BulletsFrom(s, f)) == TextOf(s[f..])
    ensures TextOf(BulletsFrom(s, p)) == TextOf(s[p..])
  {
    BulletsFromMatch(s, p, f);
    TextOfNone(Bullet);
    TextOfAfterBlank(Bullet, BulletsFrom(s, f));
    MatchHasNoText(s, p, f);
    TextOfSkipBlank(s, p, f);
  }

  /** Text without running text in front of `y` adds nothing to it. */
  lemma TextOfAfterBlank(x: string, y: string)
    requires TextOf(x) == []
    ensures TextOf(x + y) == TextOf(y)
  {
    TextOfConcat(x, y);
  }

  lemma TextOfSkipBlank(s: string, p: nat, f: nat)
    requires p <= f <= |s| && TextOf(s[p..f]) == []
    ensures TextOf(s[p..]) == TextOf(s[f..])
  {
    assert s[p..] == s[p..f] + s[f..];
    TextOfAfterBlank(s[p..f], s[f..]);
  }

  /** A match of `^\s*\*\s+` is whitespace and one asterisk. */
  lemma MatchHasNoText(s: string, p: nat, f: nat)
    requires p < |s| && BulletAt(s, p) == Some(f)
    ensures TextOf(s[p..f]) == []
  {
    SkipSpaceRun(s, p);
    SkipSpaceRun(s, SkipSpace(s, p) + 1);
    forall i | 0 <= i < f - p ensures !IsText(s[p..f][i]) {
      assert s[p..f][i] == s[p + i];
    }
    TextOfNone(s[p..f]);
  }

  /** Step 3 replaces only whitespace, an asterisk and the bullet glyph. */
  lemma BulletsKeepText(s: string)
    ensures TextOf(Bullets(s)) == TextOf(s)
  {
    BulletsFromKeepsText(s, 0);
  }

  // ---------------------------------------------------------------------
  // The whole pipeline

  lemma StripNoStar(s: string, m: Marker)
    requires '*' !in s
    ensures Strip(s, m) == s
  {
    StripPrefix(s, [], m);
    assert s + [] == s;
  }

  lemma TrimKeepsText(s: string)
    ensures TextOf(Trim(s)) == TextOf(s)
  {
    var i, j := TrimSlice(s);
    OuterSpaceHidden(s, i, j);
  }

  lemma OuterSpaceHidden(s: string, i: nat, j: nat)
    requires i <= j <= |s| && AllSpace(s[..i]) && AllSpace(s[j..])
    ensures TextOf(s[i..j]) == TextOf(s)
  {
    SpaceHasNoText(s[..i]);
    SpaceHasNoText(s[j..]);
    SliceThree(s, 0, i, j, |s|);
    assert s[0..|s|] == s && s[0..i] == s[..i] && s[j..|s|] == s[j..];
    TextOfMiddle(s[..i], s[i..j], s[j..]);
  }

  lemma TextOfMiddle(x: string, y: string, z: string)
    requires TextOf(x) == [] && TextOf(z) == []
    ensures TextOf(x + (y + z)) == TextOf(y)
  {
    TextOfConcat(y, z);
    TextOfConcat(x, y + z);
    assert TextOf(y) + [] == TextOf(y);
  }

  lemma SpaceHasNoText(s: string)
    requires AllSpace(s)
    ensures TextOf(s) == []
  {
    TextOfNone(s);
  }

  /** The characters of running text have no asterisk among them. */
  lemma {:induction false} TextOfUnstarred(s: string)
    ensures TextOf(Unstarred(s)) == TextOf(s)
  {
    if s != [] {
      TextOfUnstarred(s[1..]);
      TextOfConcat(if s[0] == '*' then [] else [s[0]], Unstarred(s[1..]));
    }
  }

  /** The clean-up deletes only asterisks and whitespace and writes only bullet glyphs and spaces:
      every other character of the answer survives, in its original order. */
  lemma SanitizeKeepsText(raw: string)
    ensures TextOf(Sanitize(raw)) == TextOf(raw)
  {
    var t1 := Strip(raw, Bold);
    var t2 := Strip(t1, Italic);
    var t3 := Bullets(t2);
    StripKeepsText(raw, Bold);
    TextOfUnstarred(raw);
    TextOfUnstarred(t1);
    StripKeepsText(t1, Italic);
    TextOfUnstarred(t2);
    BulletsKeepText(t2);
    TrimKeepsText(t3);
  }

  /** Text without asterisks is only trimmed. */
  lemma SanitizeStarFree(raw: string)
    requires '*' !in raw
    ensures Sanitize(raw) == Trim(raw)
  {
    StripNoStar(raw, Bold);
    StripNoStar(raw, Italic);
    BulletsNoStar(raw);
  }

  /** The fallback answer, or any text without asterisks and outer whitespace, passes the clean-up unchanged. */
  lemma SanitizePlain(s: string)
    requires '*' !in s && s != [] && !IsSpace(s[0]) && !IsSpace(s[|s| - 1])
    ensures Sanitize(s) == s
  {
    SanitizeStarFree(s);
    TrimKeepsInner(s);
  }

  // ---------------------------------------------------------------------
  // Running the clean-up twice

  /** `^\s*\*\s+` without its `^`: after the whitespace from `p` come an asterisk and more whitespace. */
  predicate BulletShape(s: string, p: nat)
    requires p <= |s|
  {
    var e := SkipSpace(s, p);
    e + 1 < |s| && s[e] == '*' && IsSpace(s[e + 1])
  }

  /** No attempt of step 3 succeeds anywhere in `s`. */
  predicate Unbulleted(s: string) {
    forall p :: 0 <= p <= |s| ==> BulletAt(s, p).None?
  }

  /** The closing-marker scan from the start of `[c] + rest`, for a character `c` that is not an asterisk. */
  lemma CloseFromCons(c: char, rest: string)
    requires c != '*'
    ensures CloseFrom([c] + rest, Italic, 0) == if IsLineTerminator(c) then None else Shift(CloseFrom(rest, Italic, 0), 1)
  {
    assert ([c] + rest)[0] == c;
    CloseFromShift([c], rest, Italic, 0);
  }

  /** An asterisk with no other asterisk after it on its line opens no italic pair. */
  lemma LoneStarHead(rest: string)
    requires CloseFrom(rest, Italic, 0) == None
    ensures PairAt(['*'] + rest, Italic, 0) == None
  {
    CloseFromShift(['*'], rest, Italic, 0);
  }

  /** In front of text without italic pairs, a stretch whose every attempt fails keeps it so. */
  lemma UnpairedAppend(a: string, b: string)
    requires Unpaired(b, Italic)
    requires forall i :: 0 <= i < |a| ==> PairAt(a + b, Italic, i).None?
    ensures Unpaired(a + b, Italic)
  {
    forall p | |a| <= p < |a + b| ensures PairAt(a + b, Italic, p).None? {
      PairAtShift(a, b, Italic, p - |a|);
    }
  }

  /** No attempt starts inside a stretch without asterisks. */
  lemma StarFreeHead(a: string, b: string)
    requires '*' !in a
    ensures forall i :: 0 <= i < |a| ==> PairAt(a + b, Italic, i).None?
  {
    forall i | 0 <= i < |a| ensures PairAt(a + b, Italic, i).None? {
      assert (a + b)[i] == a[i];
    }
  }

  /** The text a pair encloses holds no asterisk. */
  lemma PairInnerStarFree(s: string, p: nat, k: nat)
    requires PairAt(s, Italic, p) == Some(k)
    ensures '*' !in s[p + 1..k]
  {
    PairAtSpec(s, Italic, p, k);
    var inner := s[p + 1..k];
    forall x | 0 <= x < |inner| ensures inner[x] != '*' {
      assert inner[x] == s[p + 1 + x];
      assert !MarkerAt(s, Italic, p + 1 + x);
    }
  }

  /** Scanning step 2 from a place with no asterisk before the end of its line writes no asterisk before the end of that line. */
  lemma {:induction false} StripHeadFree(s: string, q: nat)
    requires q <= |s| && CloseFrom(s, Italic, q) == None
    ensures CloseFrom(StripFrom(s, Italic, q), Italic, 0) == None
    decreases |s| - q
  {
    if q < |s| {
      assert !MarkerAt(s, Italic, q);
      StripFromSkip(s, Italic, q);
      var rest := StripFrom(s, Italic, q + 1);
      if !IsLineTerminator(s[q]) {
        StripHeadFree(s, q + 1);
      }
      CloseFromCons(s[q], rest);
    }
  }

  /** Step 2 leaves no italic pair: an asterisk it keeps has no other asterisk after it on its line. */
  lemma {:induction false} StripFromLeavesNoPair(s: string, p: nat)
    requires p <= |s|
    ensures Unpaired(StripFrom(s, Italic, p), Italic)
    decreases |s| - p
  {
    if p < |s| {
      var n := StripNext(s, Italic, p);
      var out := StripOut(s, Italic, p);
      var rest := StripFrom(s, Italic, n);
      StripFromLeavesNoPair(s, n);
      assert StripFrom(s, Italic, p) == out + rest;
      var o := PairAt(s, Italic, p);
      if o.Some? {
        PairInnerStarFree(s, p, o.value);
        StarFreeHead(out, rest);
      } else if s[p] == '*' {
        StripHeadFree(s, p + 1);
        LoneStarHead(rest);
      } else {
        StarFreeHead(out, rest);
      }
      UnpairedAppend(out, rest);
    }
  }

  /** Step 2 leaves no italic pair. */
  lemma StripLeavesNoPair(s: string)
    ensures Unpaired(Strip(s, Italic), Italic)
  {
    StripFromLeavesNoPair(s, 0);
  }

  /** Inside a line, step 3 copies: from a place with no asterisk before the end of its line, it writes none either. */
  lemma {:induction false} BulletsHeadFree(t: string, q: nat)
    requires 0 < q <= |t| && !IsLineTerminator(t[q - 1]) && CloseFrom(t, Italic, q) == None
    ensures CloseFrom(BulletsFrom(t, q), Italic, 0) == None
    decreases |t| - q
  {
    if q < |t| {
      assert !MarkerAt(t, Italic, q);
      NoBulletInsideLine(t, q);
      BulletsFromSkip(t, q);
      var rest := BulletsFrom(t, q + 1);
      if !IsLineTerminator(t[q]) {
        BulletsHeadFree(t, q + 1);
      }
      CloseFromCons(t[q], rest);
    }
  }

  /** Step 3 adds no italic pair: an asterisk it keeps is followed, up to the end of its line, by copied text. */
  lemma {:induction false} BulletsFromKeepNoPair(t: string, p: nat)
    requires p <= |t| && Unpaired(t, Italic)
    ensures Unpaired(BulletsFrom(t, p), Italic)
    decreases |t| - p
  {
    if p < |t| {
      var n := BulletNext(t, p);
      var out := BulletOut(t, p);
      var rest := BulletsFrom(t, n);
      BulletsFromKeepNoPair(t, n);
      assert BulletsFrom(t, p) == out + rest;
      if BulletAt(t, p).None? && t[p] == '*' {
        assert MarkerAt(t, Italic, p) && PairAt(t, Italic, p).None?;
        BulletsHeadFree(t, p + 1);
        LoneStarHead(rest);
      } else {
        StarFreeHead(out, rest);
      }
      UnpairedAppend(out, rest);
    }
  }

  /** Step 3 keeps a text free of italic pairs free of them. */
  lemma BulletsKeepNoPair(t: string)
    requires Unpaired(t, Italic)
    ensures Unpaired(Bullets(t), Italic)
  {
    BulletsFromKeepNoPair(t, 0);
  }

  /** Away from the start of `b`, an attempt of step 3 in `a + b` is the attempt in `b`. */
  lemma BulletAtInner(a: string, b: string, q: nat)
    requires 0 < q <= |b|
    ensures BulletAt(a + b, |a| + q) == Shift(BulletAt(b, q), |a|)
  {
    assert (a + b)[|a| + q - 1] == b[q - 1];
    if LineStart(b, q) {
      BulletAtShiftLine(a, b, q);
    }
  }

  /** A leading whitespace character does not change the bullet shape at the start. */
  lemma SpaceConsShape(c: char, rest: string)
    requires IsSpace(c)
    ensures BulletShape([c] + rest, 0) == BulletShape(rest, 0)
  {
    var r := [c] + rest;
    assert r[0] == c;
    assert SkipSpace(r, 0) == SkipSpace(r, 1);
    SkipSpaceShift([c], rest, 0);
    var e := SkipSpace(rest, 0);
    if e + 1 < |rest| {
      assert r[e + 1] == rest[e] && r[e + 2] == rest[e + 1];
    }
  }

  /** After a kept asterisk that does not open a bullet, step 3 starts with a character that is not whitespace. */
  lemma StarHeadShape(t: string, p: nat)
    requires p < |t| && t[p] == '*' && !BulletShape(t, p)
    ensures !BulletShape([t[p]] + BulletsFrom(t, p + 1), 0)
  {
    var r := [t[p]] + BulletsFrom(t, p + 1);
    assert r[0] == '*' && SkipSpace(r, 0) == 0;
    assert SkipSpace(t, p) == p;
    if p + 1 < |t| {
      NoBulletInsideLine(t, p + 1);
      BulletsFromSkip(t, p + 1);
      assert r[1] == t[p + 1];
    }
  }

  /** Step 3 leaves no match of its own: every line start of its output is followed by a glyph, or by text
      on which the attempt at the same line start of the input already failed. */
  lemma {:induction false} BulletsFromNoMatch(t: string, p: nat)
    requires p <= |t|
    ensures forall q :: 0 < q <= |BulletsFrom(t, p)| ==> BulletAt(BulletsFrom(t, p), q).None?
    ensures LineStart(t, p) || !BulletShape(t, p) ==> !BulletShape(BulletsFrom(t, p), 0)
    decreases |t| - p
  {
    if p < |t| {
      var n := BulletNext(t, p);
      var out := BulletOut(t, p);
      var rest := BulletsFrom(t, n);
      var r := BulletsFrom(t, p);
      BulletsFromNoMatch(t, n);
      assert r == out + rest;
      if BulletAt(t, p).Some? {
        BulletMatchNoMatch(rest, r);
      } else {
        CopyNoMatch(t, p, rest, r);
      }
    }
  }

  /** The output of a match starts with the glyph and a space, so no attempt succeeds in them or right after. */
  lemma BulletMatchNoMatch(rest: string, r: string)
    requires r == Bullet + rest
    requires forall q :: 0 < q <= |rest| ==> BulletAt(rest, q).None?
    ensures forall q :: 0 < q <= |r| ==> BulletAt(r, q).None?
    ensures !BulletShape(r, 0)
  {
    assert r[0] == BulletGlyph && r[1] == ' ';
    assert SkipSpace(r, 0) == 0;
    forall q | 0 < q <= |r| ensures BulletAt(r, q).None? {
      if q > 2 {
        BulletAtInner(Bullet, rest, q - 2);
      }
    }
  }

  /** A copied character keeps the output free of matches. */
  lemma CopyNoMatch(t: string, p: nat, rest: string, r: string)
    requires p < |t| && BulletAt(t, p).None?
    requires rest == BulletsFrom(t, p + 1) && r == [t[p]] + rest
    requires forall q :: 0 < q <= |rest| ==> BulletAt(rest, q).None?
    requires LineStart(t, p + 1) || !BulletShape(t, p + 1) ==> !BulletShape(rest, 0)
    ensures forall q :: 0 < q <= |r| ==> BulletAt(r, q).None?
    ensures LineStart(t, p) || !BulletShape(t, p) ==> !BulletShape(r, 0)
  {
    CopyNoMatchAfter(t[p], rest, r);
    if LineStart(t, p) || !BulletShape(t, p) {
      CopyNoMatchHead(t, p, rest, r);
    }
  }

  /** After a copied character, an attempt succeeds only where it succeeds in the rest of the output. */
  lemma CopyNoMatchAfter(c: char, rest: string, r: string)
    requires r == [c] + rest
    requires IsLineTerminator(c) ==> !BulletShape(rest, 0)
    requires forall q :: 0 < q <= |rest| ==> BulletAt(rest, q).None?
    ensures forall q :: 0 < q <= |r| ==> BulletAt(r, q).None?
  {
    assert r[0] == c;
    forall q | 0 < q <= |r| ensures BulletAt(r, q).None? {
      if q > 1 {
        BulletAtInner([c], rest, q - 1);
      } else if IsLineTerminator(c) {
        BulletAtShift([c], rest, 0);
      }
    }
  }

  /** A copied character at a line start, or where the shape is missing, starts no match of the output. */
  lemma CopyNoMatchHead(t: string, p: nat, rest: string, r: string)
    requires p < |t| && BulletAt(t, p).None?
    requires rest == BulletsFrom(t, p + 1) && r == [t[p]] + rest
    requires LineStart(t, p + 1) || !BulletShape(t, p + 1) ==> !BulletShape(rest, 0)
    requires LineStart(t, p) || !BulletShape(t, p)
    ensures !BulletShape(r, 0)
  {
    var c := t[p];
    assert !BulletShape(t, p);
    if c == '*' {
      StarHeadShape(t, p);
    } else if IsSpace(c) {
      assert SkipSpace(t, p) == SkipSpace(t, p + 1);
      SpaceConsShape(c, rest);
    } else {
      assert r[0] == c && SkipSpace(r, 0) == 0;
    }
  }

  /** Step 3 leaves nothing for a second pass of step 3 to match. */
  lemma BulletsLeaveNoMatch(t: string)
    ensures Unbulleted(Bullets(t))
  {
    BulletsFromNoMatch(t, 0);
  }

  /** A match of step 3 in a slice that starts after whitespace only is a match in the whole text. */
  lemma SliceBullet(t: string, i: nat, j: nat, q: nat)
    requires i <= j <= |t| && q <= j - i
    requires forall x :: 0 <= x < i ==> IsSpace(t[x])
    requires BulletAt(t[i..j], q).Some?
    ensures BulletAt(t, if q == 0 then 0 else i + q).Some?
  {
    var u := t[i..j];
    var e := SkipSpace(u, q);
    SkipSpaceRun(u, q);
    var p0 := if q == 0 then 0 else i + q;
    forall x | p0 <= x < i + e ensures IsSpace(t[x]) {
      if x >= i {
        assert t[x] == u[x - i];
      }
    }
    assert t[i + e] == u[e] && t[i + e + 1] == u[e + 1];
    SkipSpaceUnique(t, p0, i + e);
    if q > 0 {
      assert t[i + q - 1] == u[q - 1];
    }
  }

  /** A pair in a slice is a pair in the whole text. */
  lemma SlicePair(t: string, i: nat, j: nat, q: nat, k: nat)
    requires i <= j <= |t|
    requires PairAt(t[i..j], Italic, q) == Some(k)
    ensures PairAt(t, Italic, i + q) == Some(i + k)
  {
    var u := t[i..j];
    PairAtSpec(u, Italic, q, k);
    assert t[i + q] == u[q] && t[i + k] == u[k];
    forall x | i + q + 1 <= x < i + k
      ensures !IsLineTerminator(t[x]) && !MarkerAt(t, Italic, x)
    {
      assert t[x] == u[x - i];
      assert !MarkerAt(u, Italic, x - i);
    }
    PairAtSpec(t, Italic, i + q, i + k);
  }

  /** `trim` adds neither an italic pair nor a match of step 3. */
  lemma TrimKeepsClean(t: string)
    requires Unpaired(t, Italic) && Unbulleted(t)
    ensures Unpaired(Trim(t), Italic) && Unbulleted(Trim(t))
  {
    var i := SkipSpace(t, 0);
    var j := SkipSpaceBack(t, i, |t|);
    assert Trim(t) == t[i..j];
    SkipSpaceRun(t, 0);
    forall q | 0 <= q < |t[i..j]| ensures PairAt(t[i..j], Italic, q).None? {
      var o := PairAt(t[i..j], Italic, q);
      if o.Some? {
        SlicePair(t, i, j, q, o.value);
      }
    }
    forall q | 0 <= q <= |t[i..j]| ensures BulletAt(t[i..j], q).None? {
      if BulletAt(t[i..j], q).Some? {
        SliceBullet(t, i, j, q);
      }
    }
  }

  /** A bold marker is an italic pair of two adjacent asterisks. */
  lemma BoldOpensItalic(s: string, p: nat)
    requires MarkerAt(s, Bold, p)
    ensures PairAt(s, Italic, p) == Some(p + 1)
  {
    assert MarkerAt(s, Italic, p + 1);
  }

  /** Without an italic pair there is no bold pair either: `**` is two italic markers on one line. */
  lemma ItalicFreeBoldFree(s: string)
    requires Unpaired(s, Italic)
    ensures Unpaired(s, Bold)
  {
    forall p | 0 <= p < |s| ensures PairAt(s, Bold, p).None? {
      if MarkerAt(s, Bold, p) {
        BoldOpensItalic(s, p);
        assert false;
      }
    }
  }

  lemma {:induction false} BulletsFromUnbulleted(s: string, p: nat)
    requires p <= |s| && Unbulleted(s)
    ensures BulletsFrom(s, p) == s[p..]
    decreases |s| - p
  {
    if p < |s| {
      BulletsFromUnbulleted(s, p + 1);
      BulletsFromSkip(s, p);
      assert s[p..] == [s[p]] + s[p + 1..];
    }
  }

  /** Step 3 leaves the text unchanged when no attempt succeeds. */
  lemma BulletsUnchanged(s: string)
    requires Unbulleted(s)
    ensures Bullets(s) == s
  {
    BulletsFromUnbulleted(s, 0);
  }

  /** Cleaning an answer a second time changes nothing: steps 1 and 2 find no pair in it, step 3 no
      match, and it has no outer whitespace for `trim`. */
  lemma SanitizeIdempotent(raw: string)
    ensures Sanitize(Sanitize(raw)) == Sanitize(raw)
  {
    var t2 := Strip(Strip(raw, Bold), Italic);
    var t3 := Bullets(t2);
    var u := Sanitize(raw);
    assert u == Trim(t3);
    StripLeavesNoPair(Strip(raw, Bold));
    BulletsKeepNoPair(t2);
    BulletsLeaveNoMatch(t2);
    TrimKeepsClean(t3);
    ItalicFreeBoldFree(u);
    StripUnchanged(u, Bold);
    StripUnchanged(u, Italic);
    BulletsUnchanged(u);
    TrimKeepsInner(u);
  }

  // ---------------------------------------------------------------------
  // Shapes of text and what each step makes of them

  lemma StripSkipOne(c: char, rest: string, m: Marker)
    requires PairAt([c] + rest, m, 0) == None
    ensures Strip([c] + rest, m) == [c] + Strip(rest, m)
  {
    StripShift([c], rest, m, 0);
  }

  /** A lone asterisk before other text is not a bold marker. */
  lemma LoneStarNotBold(rest: string)
    requires rest != [] && rest[0] != '*'
    ensures PairAt(['*'] + rest, Bold, 0) == None
  {
    var s := ['*'] + rest;
    assert s[0..2][1] == rest[0];
  }

  /** Between two italic markers the closing one is the nearest: `*a*b*` loses its first two markers. */
  lemma ItalicNearest(a: string, b: string)
    requires '*' !in a && '*' !in b && NoLineBreak(a)
    ensures Strip("*" + a + "*" + b + "*", Italic) == a + b + "*"
  {
    StripPair(a, b + "*", Italic);
    assert "*" + a + "*" + b + "*" == Delim(Italic) + a + Delim(Italic) + (b + "*");
    StripPrefix(b, "*", Italic);
    StripLone([], Italic);
    assert ['*'] + [] == "*";
  }

  /** Markers on different lines do not pair: `*a` newline `b*` is kept as it is. */
  lemma ItalicAcrossLines(a: string, b: string, brk: char)
    requires '*' !in a && '*' !in b && IsLineTerminator(brk)
    ensures Strip("*" + a + [brk] + b + "*", Italic) == "*" + a + [brk] + b + "*"
  {
    var first := "*" + a + [brk];
    assert "*" + a + [brk] + b + "*" == first + (b + "*");
    assert first[|first| - 1] == brk;
    StripLines(first, b + "*", Italic);
    assert '*' !in a + [brk];
    assert first == ['*'] + (a + [brk]);
    StripLone(a + [brk], Italic);
    StripPrefix(b, "*", Italic);
    StripLone([], Italic);
    assert ['*'] + [] == "*";
  }

  /** Step 3 swallows the blank line before a bullet, so the number of lines drops. */
  lemma BulletAbsorbsBlankLine(line: string, text: string)
    requires line != [] && !IsSpace(line[0]) && line[0] != '*' && NoLineBreak(line)
    requires text != [] && !IsSpace(text[0]) && NoLineBreak(text)
    ensures Bullets(line + "\n\n* " + text) == line + "\n" + Bullet + text
  {
    var s := "\n* " + text;
    assert line + "\n\n* " + text == line + ['\n'] + s;
    BulletsPlainLine(line, '\n', s);
    assert s[0] == '\n' && s[1] == '*' && s[2] == ' ' && s[3] == text[0];
    assert SkipSpace(s, 1) == 1;
    assert SkipSpace(s, 0) == 1;
    assert SkipSpace(s, 3) == 3;
    assert SkipSpace(s, 2) == 3;
    assert BulletAt(s, 0) == Some(3);
    forall i | 3 <= i < |s| - 1 ensures !IsLineTerminator(s[i]) {
      assert s[i] == text[i - 3];
    }
    assert !LineStart(s, 3);
    BulletsCopy(s, 3, |s|);
    assert s[3..] == text;
  }

  /** A bare asterisk at the end of a line swallows the line break: `*` newline `text` becomes `• text`. */
  lemma BulletJoinsNextLine(text: string)
    requires text != [] && !IsSpace(text[0]) && text[0] != '*' && NoLineBreak(text)
    ensures Bullets("*\n" + text) == Bullet + text
  {
    var s := "*\n" + text;
    assert s[0] == '*' && s[1] == '\n' && s[2] == text[0];
    assert SkipSpace(s, 0) == 0;
    assert SkipSpace(s, 2) == 2;
    assert SkipSpace(s, 1) == 2;
    assert BulletAt(s, 0) == Some(2);
    forall i | 2 <= i < |s| - 1 ensures !IsLineTerminator(s[i]) {
      assert s[i] == text[i - 2];
    }
    assert BulletAt(s, 2) == None;
    BulletsCopy(s, 2, |s|);
    assert s[2..] == text;
  }

  /** Text made of parts free of asterisks and line breaks. */
  predicate Plain(s: string) {
    '*' !in s && NoLineBreak(s)
  }

  lemma PlainJoin(a: string, b: string)
    requires Plain(a) && Plain(b)
    ensures Plain(a + b)
  {
    assert forall i :: 0 <= i < |a + b| ==> (a + b)[i] == if i < |a| then a[i] else b[i - |a|];
  }

  /** A list item line `* u` followed by a line break, or the last one without it. */
  function Item(u: string, last: bool): string {
    "* " + (u + if last then [] else "\n")
  }

  /** The first line of the shape: `x*y*z` and a line break. */
  function Emphasis(x: string, y: string, z: string): string {
    x + ("*" + (y + ("*" + (z + "\n"))))
  }

  /** An answer shaped like `**w**x*y*z`, then the items `* u` and `* v` on their own lines. */
  function Shape(w: string, x: string, y: string, z: string, u: string, v: string): string {
    "**" + (w + ("**" + (Emphasis(x, y, z) + (Item(u, false) + Item(v, true)))))
  }

  /** Neither emphasis step changes an item line. */
  lemma ItemKept(u: string, last: bool, m: Marker)
    requires Plain(u)
    ensures Strip(Item(u, last), m) == Item(u, last)
  {
    var tail := " " + (u + if last then [] else "\n");
    assert Item(u, last) == ['*'] + tail;
    assert '*' !in tail;
    StripLone(tail, m);
  }

  lemma ItemEnds(u: string)
    ensures Item(u, false)[|Item(u, false)| - 1] == '\n'
  {
  }

  /** Step 1 keeps the first line: a single asterisk is not a bold marker. */
  lemma EmphasisBold(x: string, y: string, z: string)
    requires Plain(x) && Plain(y) && Plain(z) && y != []
    ensures Strip(Emphasis(x, y, z), Bold) == Emphasis(x, y, z)
  {
    var zn := z + "\n";
    assert '*' !in zn;
    StripLone(zn, Bold);
    StripPrefix(y, "*" + zn, Bold);
    var t := y + ("*" + zn);
    assert t[0] == y[0];
    LoneStarNotBold(t);
    StripSkipOne('*', t, Bold);
    StripPrefix(x, "*" + t, Bold);
  }

  /** Step 2 deletes the italic markers of the first line. */
  lemma EmphasisItalic(w: string, x: string, y: string, z: string)
    requires Plain(w) && Plain(x) && Plain(y) && Plain(z)
    ensures Strip(w + Emphasis(x, y, z), Italic) == w + (x + (y + (z + "\n")))
  {
    var zn := z + "\n";
    assert '*' !in zn;
    StripNoStar(zn, Italic);
    assert "*" + (y + ("*" + zn)) == Delim(Italic) + y + Delim(Italic) + zn;
    StripPair(y, zn, Italic);
    PlainJoin(w, x);
    assert w + Emphasis(x, y, z) == (w + x) + ("*" + (y + ("*" + zn)));
    StripPrefix(w + x, "*" + (y + ("*" + zn)), Italic);
  }

  lemma EmphasisEnds(x: string, y: string, z: string)
    ensures Emphasis(x, y, z)[|Emphasis(x, y, z)| - 1] == '\n'
  {
  }

  /** Step 1 on the shape: only `**w**` pairs. */
  lemma ShapeBold(w: string, x: string, y: string, z: string, u: string, v: string)
    requires Plain(w) && Plain(x) && Plain(y) && Plain(z) && Plain(u) && Plain(v) && y != []
    ensures Strip(Shape(w, x, y, z, u, v), Bold) == w + (Emphasis(x, y, z) + (Item(u, false) + Item(v, true)))
  {
    var l1, l2, l3 := Emphasis(x, y, z), Item(u, false), Item(v, true);
    assert Shape(w, x, y, z, u, v) == Delim(Bold) + w + Delim(Bold) + (l1 + (l2 + l3));
    StripPair(w, l1 + (l2 + l3), Bold);
    EmphasisEnds(x, y, z);
    ItemEnds(u);
    StripLines(l1, l2 + l3, Bold);
    StripLines(l2, l3, Bold);
    EmphasisBold(x, y, z);
    ItemKept(u, false, Bold);
    ItemKept(v, true, Bold);
  }

  /** Step 2 on the result of step 1: `*y*` loses its markers, the item asterisks stay. */
  lemma ShapeItalic(w: string, x: string, y: string, z: string, u: string, v: string)
    requires Plain(w) && Plain(x) && Plain(y) && Plain(z) && Plain(u) && Plain(v)
    ensures Strip(w + (Emphasis(x, y, z) + (Item(u, false) + Item(v, true))), Italic)
         == (w + (x + (y + (z + "\n")))) + (Item(u, false) + Item(v, true))
  {
    var l1, l2, l3 := w + Emphasis(x, y, z), Item(u, false), Item(v, true);
    assert w + (Emphasis(x, y, z) + (l2 + l3)) == l1 + (l2 + l3);
    EmphasisEnds(x, y, z);
    assert l1[|l1| - 1] == '\n';
    ItemEnds(u);
    StripLines(l1, l2 + l3, Italic);
    StripLines(l2, l3, Italic);
    EmphasisItalic(w, x, y, z);
    ItemKept(u, false, Italic);
    ItemKept(v, true, Italic);
  }

  /** Step 3 on the result of step 2: both items get the glyph. */
  lemma ShapeBullets(line: string, u: string, v: string)
    requires Plain(line) && Plain(u) && Plain(v)
    requires line != [] && !IsSpace(line[0]) && u != [] && !IsSpace(u[0]) && v != [] && !IsSpace(v[0])
    ensures Bullets((line + "\n") + (Item(u, false) + Item(v, true)))
         == line + ("\n" + (Bullet + (u + ("\n" + (Bullet + v)))))
  {
    var rest := "* " + u + ['\n'] + ("* " + v);
    assert (line + "\n") + (Item(u, false) + Item(v, true)) == line + ['\n'] + rest;
    BulletsPlainLine(line, '\n', rest);
    BulletsItem(u, '\n', "* " + v);
    BulletsLastItem(v);
    assert line + ['\n'] + (Bullet + u + ['\n'] + (Bullet + v)) == line + ("\n" + (Bullet + (u + ("\n" + (Bullet + v)))));
  }

  /** The whole clean-up on the shape: the emphasis markers go and the items get the glyph. */
  lemma SanitizeShape(w: string, x: string, y: string, z: string, u: string, v: string)
    requires Plain(w) && Plain(x) && Plain(y) && Plain(z) && Plain(u) && Plain(v)
    requires w != [] && !IsSpace(w[0]) && y != []
    requires u != [] && !IsSpace(u[0]) && v != [] && !IsSpace(v[0]) && !IsSpace(v[|v| - 1])
    ensures Sanitize(Shape(w, x, y, z, u, v)) == w + (x + (y + (z + ("\n" + (Bullet + (u + ("\n" + (Bullet + v))))))))
  {
    var items := Item(u, false) + Item(v, true);
    var t1 := w + (Emphasis(x, y, z) + items);
    var t2 := (w + (x + (y + (z + "\n")))) + items;
    ShapeBold(w, x, y, z, u, v);
    ShapeItalic(w, x, y, z, u, v);
    var line := w + (x + (y + z));
    ShapeFirstLine(w, x, y, z);
    assert t2 == (line + "\n") + items;
    ShapeBullets(line, u, v);
    var t3 := line + ("\n" + (Bullet + (u + ("\n" + (Bullet + v)))));
    ShapeOut(w, x, y, z, u, v);
    SanitizeThrough(Shape(w, x, y, z, u, v), t1, t2, t3);
  }

  /** The first line after steps 1 and 2 is one plain line starting with `w`. */
  lemma ShapeFirstLine(w: string, x: string, y: string, z: string)
    requires Plain(w) && Plain(x) && Plain(y) && Plain(z) && w != []
    ensures Plain(w + (x + (y + z))) && (w + (x + (y + z)))[0] == w[0]
    ensures w + (x + (y + (z + "\n"))) == (w + (x + (y + z))) + "\n"
  {
    PlainJoin(y, z);
    PlainJoin(x, y + z);
    PlainJoin(w, x + (y + z));
  }

  lemma ShapeOut(w: string, x: string, y: string, z: string, u: string, v: string)
    requires w != [] && v != []
    ensures var t3 := (w + (x + (y + z))) + ("\n" + (Bullet + (u + ("\n" + (Bullet + v)))));
      t3 == w + (x + (y + (z + ("\n" + (Bullet + (u + ("\n" + (Bullet + v))))))))
      && t3[0] == w[0] && t3[|t3| - 1] == v[|v| - 1]
  {
  }

  /** The clean-up read off the results of its three replace steps. */
  lemma SanitizeThrough(raw: string, t1: string, t2: string, t3: string)
    requires Strip(raw, Bold) == t1 && Strip(t1, Italic) == t2 && Bullets(t2) == t3
    requires t3 == [] || (!IsSpace(t3[0]) && !IsSpace(t3[|t3| - 1]))
    ensures Sanitize(raw) == t3
  {
    TrimKeepsInner(t3);
  }

  /** The same shape, read line by line on both sides. */
  lemma SanitizeShapeLines(w: string, x: string, y: string, z: string, u: string, v: string, raw: string, out: string)
    requires Plain(w) && Plain(x) && Plain(y) && Plain(z) && Plain(u) && Plain(v)
    requires w != [] && !IsSpace(w[0]) && y != []
    requires u != [] && !IsSpace(u[0]) && v != [] && !IsSpace(v[0]) && !IsSpace(v[|v| - 1])
    requires raw == ("**" + (w + ("**" + Emphasis(x, y, z)))) + (Item(u, false) + Item(v, true))
    requires out == (w + (x + (y + (z + "\n")))) + (Bullet + (u + "\n") + (Bullet + v))
    ensures Sanitize(raw) == out
  {
    assert Shape(w, x, y, z, u, v) == raw;
    assert w + (x + (y + (z + ("\n" + (Bullet + (u + ("\n" + (Bullet + v)))))))) == out;
    SanitizeShape(w, x, y, z, u, v);
  }

  lemma ExamplePlainParts()
    ensures Plain("Start") && Plain(" a ") && Plain("lean") && Plain(" business.")
    ensures Plain("Validate ideas") && Plain("Ship fast")
  {
  }

  lemma ExampleFirstLine()
    ensures "**" + ("Start" + ("**" + Emphasis(" a ", "lean", " business."))) == "**Start** a *lean* business.\n"
  {
    assert "**" + ("Start" + ("**" + Emphasis(" a ", "lean", " business.")))
        == "**" + ("Start" + ("**" + (" a " + ("*" + ("lean" + ("*" + (" business." + "\n")))))));
  }

  lemma ExampleItems()
    ensures Item("Validate ideas", false) + Item("Ship fast", true) == "* Validate ideas\n" + "* Ship fast"
  {
    assert Item("Validate ideas", false) == "* Validate ideas\n";
    assert Item("Ship fast", true) == "* Ship fast";
  }

  lemma ExampleOutText()
    ensures "Start" + (" a " + ("lean" + (" business." + "\n"))) == "Start a lean business.\n"
    ensures Bullet + ("Validate ideas" + "\n") == "\U{2022} Validate ideas\n"
    ensures Bullet + "Ship fast" == "\U{2022} Ship fast"
  {
  }

  /** A typical answer: bold and italic markers vanish and the two list items get bullet glyphs. */
  lemma SanitizeExample()
    ensures Sanitize("**Start** a *lean* business.\n" + ("* Validate ideas\n" + "* Ship fast"))
         == "Start a lean business.\n" + ("\U{2022} Validate ideas\n" + "\U{2022} Ship fast")
  {
    ExamplePlainParts();
    ExampleFirstLine();
    ExampleItems();
    ExampleOutText();
    SanitizeShapeLines("Start", " a ", "lean", " business.", "Validate ideas", "Ship fast",
      "**Start** a *lean* business.\n" + ("* Validate ideas\n" + "* Ship fast"),
      "Start a lean business.\n" + ("\U{2022} Validate ideas\n" + "\U{2022} Ship fast"));
  }
}

=== FILE: wrappers.dfy ===
/** Failure-carrying results shared by the route handler and the pages. */
module Wrappers {

  /** A value that may be absent: `undefined`/`null` on the JavaScript side. */
  datatype Option<+T> = None | Some(value: T)

  /** The outcome of a check that either yields a value or a list of problems. */
  datatype Result<+R, +E> = Success(value: R) | Failure(error: E)
}
